=== FILE: README.md ===
# AffiliateWP customers, modelled in Dafny

This project models the customer layer of AffiliateWP, a WordPress plugin. The layer has these parts:

- **The `Affiliate_WP_Customers_DB` database class** (`CustomersDb`). Its modelled constants are the primary key as the constructor spells it and the no-limit value 999999999999 (`Unbounded`); the cache group name, the object type and the schema version are not modelled. It has the column whitelist and the column defaults. `get_customers` does four things:
  - It normalises the loosely typed query arguments: defaults, the `date_created` → `date` rename, the limit fix, and the `orderby`/`order` overload.
  - It builds the WHERE clause from `exclude`, `user_id`, `search` and `date`.
  - It picks the projection and the row callback.
  - It reads through the `customers` cache, keyed on the count flag, the normalised arguments and the `last_changed` token.

  The class also has `count` and `add`.
- **The wrapper functions** `affwp_get_customer`, `affwp_add_customer`, `affwp_update_customer` and `affwp_delete_customer` (`CustomerFunctions`).
- **The value objects** `AffWP\Customer` (`CustomerObject`) and `AffWP_Visit` (`VisitObject`). This covers their field defaults, the `date` alias of the customer's magic getter and the visit's `sanitize_field`.
- **The admin list table `AffWP_Customers_Table`** (`CustomersListTable`). It covers:
  - how `customers_data` turns the request into `get_customers` arguments, including the search box;
  - the "current" count;
  - the arguments of `get_customer_counts`;
  - which ids `process_bulk_action` deletes;
  - the page count of `prepare_items`.
- **`affwp_remove_query_args`** (`RemovableQueryArgs`).
- **The tally of the "Highest Converting URLs" overview box** (`HighestConvertingUrls`). Converted visits are counted by referrer, with an empty referrer counted as `direct`. The tally is sorted by decreasing count and cut to `count` entries.

PHP values are modelled as the `Php.Value` datatype. `Php` also gives PHP 8 meaning to every built-in the code relies on:

- `empty` and `isset`
- the `(int)` cast and `absint`
- `is_numeric`
- loose `< 1` and loose `==` against a word
- `strtoupper`, `trim`, `strpos`, `str_replace` and `implode`

WordPress helpers whose code is not part of this model are uninterpreted function fields of `Host.Wp`. So every property holds whatever those helpers do. Examples are `sanitize_text_field`, `is_email`, `get_user_by`, `strtotime`, `gmdate` and `wp_verify_nonce`. The same goes for the operations of the base class `Affiliate_WP_DB`: `insert`, `update`, `delete`, `get_results`, `parse_fields`, `prepare_date_query` and `get_core_object`. They are fields of `CustomersDb.Backend`.

The model follows the code as written, including behaviour that looks unintended:

- The primary key is spelled `customemr_id`. So `fields => 'ids'` selects that name, and an unknown `orderby` falls back to it.
- `exclude` filters on `affiliate_id`, not on `customer_id`.
- The `user_id` clause always starts with `WHERE`. With a non-empty `exclude` as well, the clause holds two `WHERE`s (`ExcludeAndUserGiveTwoWheres`).
- The name search uses `LIKE` without wildcards, and the `customer_id` and `affiliate_id` arguments never reach the WHERE clause (`WhereIgnoresCustomerAndAffiliate`).
- The list table passes `search => true`. This boolean is neither numeric nor a string, so the search box adds no search condition (`ListSearchAddsNoCondition`).
- A `user_id:` search strips `user:` instead of `user_id:`. The user filter keeps the whole text, and its integer value is 0 (`UserIdSearchKeepsPrefix`).

The cache is a map from structural keys to values. `microtime()` is a parameter (`stamp`). Invalidation by writes, which happens in the base class, is modelled as replacing the `last_changed` token (`Rotate`): every write operation takes the new token as a parameter and rotates it in once the write reaches the base class, whatever the outcome.

## Model

| member | source | states |
|---|---|---|
| CustomersDb.Columns | includes/class-customers-db.php:76-86 | the column whitelist is exactly customer_id, user_id, email, first_name, last_name, ip, date_created; `customer_id` and `user_id` are `%d` and the other five are `%s` |
| CustomersDb.PrimaryKeyIsNotAColumn | includes/class-customers-db.php:46 | the primary key as written (`customemr_id`) is not a whitelisted column, and neither is `date` |
| CustomersDb.ColumnDefaults | includes/class-customers-db.php:94-98 | the only column default is `date_created`, the current time formatted by `gmdate` |
| CustomersDb.Prepared | includes/class-customers-db.php:128-149 | every default key is present, `number` is not below 1 by PHP comparison and `date_created` is empty |
| CustomersDb.PreparedArgs | includes/class-customers-db.php:128-149 | a non-empty `date_created` moves to `date`; a `number` below 1 becomes 999999999999, a missing one 20, a valid one is kept; every other given argument is kept unchanged, every default that is not given keeps its default value, and no key appears that was neither given nor defaulted, except `date` |
| CustomersDb.PreparedDefaults | includes/class-customers-db.php:128-140 | each default of `$defaults` that the caller does not give is used as written: offset 0, no exclusions, user 0, affiliate 0, no status, DESC, `customer_id` and the default projection |
| CustomersDb.DefaultOrdering | includes/class-customers-db.php:128-140 | a query that gives neither `order` nor `orderby` sorts DESC by `customer_id`, both in the normalised arguments and in the clauses handed to `get_results` |
| CustomersDb.EffectiveOrder | includes/class-customers-db.php:235-239 | the direction is DESC exactly when the upper-cased `order` is DESC, otherwise ASC |
| CustomersDb.EffectiveOrderby | includes/class-customers-db.php:244-254 | `date` (loosely compared) sorts by date_created, a whitelisted column by itself, anything else by the primary key; the result is always the primary key or a column |
| CustomersDb.Normalise | includes/class-customers-db.php:128-258 | the overloaded arguments are normalised: defaults present, a `number` that is not below 1 by PHP comparison, an empty `date_created`, a valid direction and a whitelisted sort column |
| CustomersDb.NormaliseAgrees | includes/class-customers-db.php:256-258 | the overloaded arguments have the prepared keys and agree with the prepared arguments except for `orderby` and `order`, which hold the effective sort |
| CustomersDb.NormalisedIsFixedPoint | includes/class-customers-db.php:140-258 | normalising arguments that are already normalised changes nothing |
| CustomersDb.NormaliseIdempotent | includes/class-customers-db.php:140-258 | normalising twice equals normalising once, so the cache key of a query is stable under re-normalisation |
| CustomersDb.ScalarIdListMatchesSingleton | includes/class-customers-db.php:156-160 | a scalar id renders in an IN list exactly as the one-element array holding it |
| CustomersDb.SearchCondition | includes/class-customers-db.php:196-215 | a numeric search matches customer_id IN the value; an email matches the user id of the user with that email (0 if none); another string matches first or last name by LIKE; any other value adds nothing |
| CustomersDb.WhereFragments | includes/class-customers-db.php:151-228 | at most three fragments; a non-empty exclude comes first with WHERE and filters affiliate_id; the user fragment always starts with WHERE; the search fragment is joined with AND after another fragment and WHERE otherwise |
| CustomersDb.ExcludeAndUserGiveTwoWheres | includes/class-customers-db.php:153-174 | with both exclude and user_id given, the clause holds two WHERE keywords |
| CustomersDb.Where | includes/class-customers-db.php:231-233 | without a date the clause is the rendered fragments; with one it is what prepare_date_query makes of them on date_created |
| CustomersDb.WhereIgnoresCustomerAndAffiliate | includes/class-customers-db.php:176-194 | changing customer_id or affiliate_id never changes the WHERE clause |
| CustomersDb.WhereReadsOnlyFilters | includes/class-customers-db.php:151-233 | argument maps that agree on exclude, user_id, search and date give the same WHERE clause |
| CustomersDb.LimitDoesNotAffectWhere | includes/class-customers-db.php:147-233 | changing `number` never changes the WHERE clause |
| CustomersDb.Projection | includes/class-customers-db.php:260-271 | `ids` selects the primary key with the intval callback; otherwise parse_fields decides the fields and `*` gets the affwp_get_customer callback, anything else none |
| CustomersDb.QueryClauses | includes/class-customers-db.php:241-287 | the clauses have no join, carry the count flag, an ASC or DESC order and an orderby that is the primary key or a column |
| CustomersDb.ClausesFollowNormalised | includes/class-customers-db.php:256-289 | the clauses handed to get_results are determined by the normalised arguments alone |
| CustomersDb.WithToken | includes/class-customers-db.php:275-279 | a truthy last_changed token is kept; a missing or falsy one is replaced by the fresh microtime stamp |
| CustomersDb.ReadThrough | includes/class-customers-db.php:283-292 | a cached non-false value is returned, otherwise the computed one; the add never replaces a present key |
| CustomersDb.GetCustomers | includes/class-customers-db.php:125-296 | the table is untouched; a hit returns the cached value; a miss returns get_results on the normalised query; the result is cached under its key unless that key was already present |
| CustomersDb.Count | includes/class-customers-db.php:307-309 | count is exactly `get_customers( $args, true )`: it leaves the table alone, caches under a count key, and on a miss returns the count computed from the table |
| CustomersDb.ReadThroughKeepsOthers | includes/class-customers-db.php:292 | reading through one key leaves every other cache entry as it was |
| CustomersDb.QueryNeverOverwrites | includes/class-customers-db.php:275-292 | a query leaves every cache entry other than last_changed as it was, creates a missing token from the stamp, and adds at most its own key |
| CustomersDb.KeyOf | includes/class-customers-db.php:273-281 | the cache key is a query key carrying the count flag and normalised arguments |
| CustomersDb.KeyOfStable | includes/class-customers-db.php:273-281 | re-issuing a query with the arguments stored in its key, under the same token, gives the same key |
| CustomersDb.HitIgnoresTable | includes/class-customers-db.php:283-290 | on a cache hit the result does not depend on the table |
| CustomersDb.OnlyNormalisedArgsMatter | includes/class-customers-db.php:256-292 | two argument maps with the same normalisation give the same result and store |
| CustomersDb.RepeatedQueryIsStable | includes/class-customers-db.php:273-292 | repeating a query without an intervening write returns the same value and leaves the store unchanged |
| CustomersDb.Rotate | includes/class-customers-db.php:275-281 | a write sets a new last_changed token and leaves the table and the other entries alone |
| CustomersDb.WriteThenReadSeesTable | includes/class-customers-db.php:275-290 | after a token rotation to an unused token the next query computes its result from the current table |
| CustomersDb.AddThenReadSeesInsert | includes/class-customers-db.php:273-292 | after an add that rotates in an unused token, the next query computes its result from the table insert left |
| CustomersDb.AddArgs | includes/class-customers-db.php:328-343 | user_id defaults to 0; a set but empty date_created is dropped; a non-empty one becomes gmdate of strtotime minus the site offset; every other key is passed through |
| CustomersDb.Add | includes/class-customers-db.php:345-360 | add returns the new id exactly when insert returns a non-zero id, and false otherwise; the table is the one insert leaves and `last_changed` is rotated |
| CustomerFunctions.CustomerIdOf | includes/customer-functions.php:12-18 | an object with customer_id set yields it as is, a numeric value yields its absint, anything else yields nothing (false) |
| CustomerFunctions.NumericIdsResolveToAbsoluteValue | includes/customer-functions.php:14-15 | an integer, or its decimal rendering, resolves to its absolute value |
| CustomerFunctions.GetCustomer | includes/customer-functions.php:10-21 | an unresolvable value gives no customer; otherwise the core object of the resolved id |
| CustomerFunctions.FieldArgs | includes/customer-functions.php:32-37 | exactly first_name, last_name, email and affiliate_id; empty inputs become '', names and email are sanitised text, affiliate_id is absint |
| CustomerFunctions.AddCustomer | includes/customer-functions.php:30-45 | the new id exactly when insert returns a non-zero id; the table is the one insert leaves and `last_changed` is rotated |
| CustomerFunctions.AddCustomerInsertArgs | includes/customer-functions.php:32-39 | insert receives exactly the four field arguments and user_id 0 |
| CustomerFunctions.UpdateCustomer | includes/customer-functions.php:53-74 | an empty id or an unknown customer changes nothing and fails; otherwise the update of the found customer's id with the field arguments, after which `last_changed` is rotated |
| CustomerFunctions.UpdateSucceedsIff | includes/customer-functions.php:55-72 | update succeeds exactly when the id is given, the customer exists and the underlying update succeeds |
| CustomerFunctions.DeleteCustomer | includes/customer-functions.php:83-90 | an unknown customer changes nothing and fails; otherwise the delete of the found customer's id, after which `last_changed` is rotated |
| CustomerFunctions.DeleteUnresolvableIsNoOp | includes/customer-functions.php:85-87 | a value that is neither an object nor numeric deletes nothing |
| CustomerObject.NewCustomer | includes/class-affwp-customer.php:35-98 | a new customer has ids 0, no affiliate ids and every other field null |
| CustomerObject.Read | includes/class-affwp-customer.php:144-151 | reading `date` gives date_created; every other key is delegated to the parent getter |
| CustomerObject.DateAliasIgnoresParent | includes/class-affwp-customer.php:146-148 | the `date` alias never depends on the parent getter |
| VisitObject.NewVisit | includes/objects/class-affwp-visit.php:12-75 | a new visit has visit, affiliate and referral ids 0 and every other field null |
| VisitObject.SanitizeField | includes/objects/class-affwp-visit.php:110-115 | the three id fields are cast to int; every other field is returned unchanged |
| VisitObject.SanitizeFieldIdempotent | includes/objects/class-affwp-visit.php:110-115 | sanitising twice equals sanitising once |
| VisitObject.SanitizeRenderedId | includes/objects/class-affwp-visit.php:111-113 | an id field given as the decimal rendering of an integer reads back as that integer |
| RemovableQueryArgs.RemoveQueryArgs | includes/actions.php:29-55 | the input list is kept as a prefix, followed by the five fixed names, followed by `action` exactly when it is removed; the length grows by 5 or 6 |
| RemovableQueryArgs.ActionRemovedIff | includes/actions.php:43-52 | `action` is in the result exactly when it is set and its sanitised value is not one of the three edit actions |
| RemovableQueryArgs.EditScreensKeepAction | includes/actions.php:49-52 | editing an affiliate keeps `action` out of the removable names |
| CustomersListTable.PageNumber | includes/admin/customers/class-list-table.php:509 | the page is absint of `paged`, or 1 when it is not set |
| CustomersListTable.PageNumbers | includes/admin/customers/class-list-table.php:509 | page n given as its decimal rendering is page n |
| CustomersListTable.PageOffsets | includes/admin/customers/class-list-table.php:555-557 | without `paged` the list starts at offset 0; page n starts n - 1 pages in |
| CustomersListTable.DateBounds | includes/admin/customers/class-list-table.php:526-532 | start is present exactly for a non-empty filter_from and holds it; end is present exactly for a non-empty filter_to and holds it with ` 23:59:59` appended |
| CustomersListTable.RequestFilters | includes/admin/customers/class-list-table.php:510-524 | the customer and user filters come from the request or are ''; the affiliate filter is the id of the affiliate named, or '' |
| CustomersListTable.ApplySearch | includes/admin/customers/class-list-table.php:538-549 | numeric searches set the customer; `user_id:` sets the user to the search without `user:`; `context:` changes nothing; `affiliate:` sets the affiliate to absint of the rest; the first matching case wins |
| CustomersListTable.NumericSearchSelectsCustomer | includes/admin/customers/class-list-table.php:540-542 | searching for a number's decimal rendering filters by that customer |
| CustomersListTable.UserIdSearchKeepsPrefix | includes/admin/customers/class-list-table.php:543-544 | a `user_id:<n>` search leaves the user filter as the whole search text, whose integer value is 0 |
| CustomersListTable.AffiliateSearchSelectsAffiliate | includes/admin/customers/class-list-table.php:547-548 | an `affiliate:<n>` search filters by affiliate n |
| CustomersListTable.RequestArgs | includes/admin/customers/class-list-table.php:553-565 | the request contributes exactly nine arguments: number per page, the page's offset, the customer, user and affiliate filters after the search, the date bounds, the search flag and the sanitised sort |
| CustomersListTable.UnsearchedFilters | includes/admin/customers/class-list-table.php:510-565 | without a search term the customer and user filters are the request's own `customer_id` and `user_id` parameters |
| CustomersListTable.SearchedFilters | includes/admin/customers/class-list-table.php:509-565 | with a search term the customer, user and affiliate filters are the request's, rewritten by the sanitised search |
| CustomersListTable.CustomersDataArgs | includes/admin/customers/class-list-table.php:555-565 | the table's own query arguments win; every other key comes from the request |
| CustomersListTable.ListSearchAddsNoCondition | includes/admin/customers/class-list-table.php:562 | the boolean search flag never adds a search condition to the WHERE clause |
| CustomersListTable.WithoutLimit | includes/admin/customers/class-list-table.php:569-571 | the current count uses the list arguments with number -1 and nothing else changed |
| CustomersListTable.CurrentCountMatchesListFilters | includes/admin/customers/class-list-table.php:567-571 | the current count has no limit and filters exactly as the listed page does |
| CustomersListTable.AbsIntAll | includes/admin/customers/class-list-table.php:479-489 | a scalar becomes its absint; an array keeps its keys and length and has each value replaced by its absint |
| CustomersListTable.AbsIntAllIdempotent | includes/admin/customers/class-list-table.php:479-489 | normalising ids twice equals normalising once |
| CustomersListTable.AbsIntAllScalarOrList | includes/admin/customers/class-list-table.php:479-489 | a scalar and the one-element list holding it normalise alike |
| CustomersListTable.CustomerCountsArgs | includes/admin/customers/class-list-table.php:474-498 | the table's query arguments with affiliate_id and customer_id replaced by their normalised request values |
| CustomersListTable.CountIdsDefault | includes/admin/customers/class-list-table.php:477-487 | an absent customer_id counts as customer 0 |
| CustomersListTable.BulkIds | includes/admin/customers/class-list-table.php:436-442 | the ids are absint of each element of customer_id, a scalar being wrapped in a list and a missing one giving none |
| CustomersListTable.ScalarBulkIdIsWrapped | includes/admin/customers/class-list-table.php:438-440 | a set scalar id and the one-element list holding it give the same single delete |
| CustomersListTable.BulkDeletes | includes/admin/customers/class-list-table.php:426-466 | ids are deleted exactly when the nonce is present and verifies for either action, there are ids, an action is given and the current action is `delete`, and then all of them |
| CustomersListTable.DeleteEach | includes/admin/customers/class-list-table.php:449-453 | no ids leave the store as it was; afterwards the cache is the old one, or the old one with `last_changed` set to the new token |
| CustomersListTable.DeleteEachAppend | includes/admin/customers/class-list-table.php:449-453 | the loop deletes its ids one by one in order: deleting a list and then one more id is deleting the longer list |
| CustomersListTable.DeleteOneRemoves | includes/customer-functions.php:83-90 | with a base class whose lookup and delete act exactly on stored rows, deleting one id removes that row and nothing else |
| CustomersListTable.DeleteEachRemovesIds | includes/admin/customers/class-list-table.php:449-453 | with such a base class, the rows left are exactly those whose id is not listed, unchanged |
| CustomersListTable.ProcessBulkAction | includes/admin/customers/class-list-table.php:426-466 | without a nonce, or with a current action other than delete, or when no deletes are due, the store is unchanged |
| CustomersListTable.BulkDeleteRemovesRequested | includes/admin/customers/class-list-table.php:426-466 | with a base class whose lookup and delete act exactly on stored rows, the bulk action removes exactly the requested ids when the deletes are due and nothing otherwise, and keeps every other row unchanged |
| CustomersListTable.TotalPages | includes/admin/customers/class-list-table.php:601 | the page count is the least number of pages of per_page rows that hold every row |
| HighestConvertingUrls.Label | includes/admin/overview/metaboxes/class-metabox-overview-highest-converting-urls.php:73-78 | an empty referrer (including "0") is counted as `direct`; any other referrer as itself |
| HighestConvertingUrls.ConvertedLabels | includes/admin/overview/metaboxes/class-metabox-overview-highest-converting-urls.php:67-78 | at most one label per visit, none of them empty |
| HighestConvertingUrls.LabelsCountConversions | includes/admin/overview/metaboxes/class-metabox-overview-highest-converting-urls.php:67-78 | each label occurs once per visit with a non-empty referral id counted under it |
| HighestConvertingUrls.CountValues | includes/admin/overview/metaboxes/class-metabox-overview-highest-converting-urls.php:73 | the tally has at most one entry per URL and is empty only for no URLs; `CountValuesCorrect` states its contents |
| HighestConvertingUrls.CountValuesCorrect | includes/admin/overview/metaboxes/class-metabox-overview-highest-converting-urls.php:73 | the tally has one entry per distinct URL, exactly the URLs that occur, each with its number of occurrences, and the counts add up to the number of URLs |
| HighestConvertingUrls.TallyEntryCounts | includes/admin/overview/metaboxes/class-metabox-overview-highest-converting-urls.php:73 | each tally entry records how often its URL occurs, at least once |
| HighestConvertingUrls.Insert | includes/admin/overview/metaboxes/class-metabox-overview-highest-converting-urls.php:80 | inserting adds exactly the new entry to the multiset of entries |
| HighestConvertingUrls.InsertSorted | includes/admin/overview/metaboxes/class-metabox-overview-highest-converting-urls.php:80 | inserting into a list sorted by decreasing count keeps it sorted |
| HighestConvertingUrls.Sort | includes/admin/overview/metaboxes/class-metabox-overview-highest-converting-urls.php:80 | sorting is a permutation of the tally |
| HighestConvertingUrls.SortSorted | includes/admin/overview/metaboxes/class-metabox-overview-highest-converting-urls.php:80 | the sorted tally is in non-increasing order of count |
| HighestConvertingUrls.Slice | includes/admin/overview/metaboxes/class-metabox-overview-highest-converting-urls.php:92 | the result is a prefix of the sorted tally with min(count, size) entries, or all but the last -count for a negative count |
| HighestConvertingUrls.SortedTallyIsConversions | includes/admin/overview/metaboxes/class-metabox-overview-highest-converting-urls.php:67-80 | every sorted entry is a URL with its true, positive number of conversions |
| HighestConvertingUrls.HighestConvertingCorrect | includes/admin/overview/metaboxes/class-metabox-overview-highest-converting-urls.php:67-92 | every shown entry carries its URL's true number of conversions, the entries are in decreasing order, and at most count are shown |
| HighestConvertingUrls.HighestConverting | includes/admin/overview/metaboxes/class-metabox-overview-highest-converting-urls.php:67-92 | at most `count` entries are shown, each an entry of the tally; `HighestConvertingCorrect` states their order and counts |
| HighestConvertingUrls.DefaultBoxShowsFive | includes/admin/overview/metaboxes/class-metabox-overview-highest-converting-urls.php:90-92 | with the default count of five the box shows five URLs, or every converted URL when there are fewer |
| HighestConvertingUrls.LeftOutIsNotHigher | includes/admin/overview/metaboxes/class-metabox-overview-highest-converting-urls.php:80-92 | a converted URL that is not shown has no more conversions than any shown one |
| HighestConvertingUrls.ConversionsAddUp | includes/admin/overview/metaboxes/class-metabox-overview-highest-converting-urls.php:71-78 | the counts add up to the number of converted visits, and each URL's count is its number of conversions |

## Left out

- **Floats.** Floating-point values are not modelled. Numeric strings with a fraction or an exponent are recognised by `is_numeric`, but their `(int)` cast reads only the leading integer digits. Exponent notation such as "1e3" therefore casts to 1 rather than 1000.
- **Integer width.** PHP integers are 64-bit and overflow to float. The model's integers are unbounded.
- **Argument order in the cache key.** The key's hash covers `serialize( $args )`, which depends on insertion order. The model keys on the normalised map, so two argument arrays that differ only in key order share a key here but not in PHP. The md5 step is left out because it is a hash of that serialisation.
- **Cache timing.** The one-hour lifetime (`HOUR_IN_SECONDS`), eviction and concurrent requests are not modelled. The token rotation that the base class performs on writes is an assumption (`Rotate`).
- **The base class `Affiliate_WP_DB`.** Its `insert`, `update`, `delete`, `get_results`, `parse_fields`, `prepare_date_query` and `get_core_object` are uninterpreted, and `create_table` is SQL DDL. `$customer->ID` is taken to be the customer's id. The table lemmas of the bulk delete (`DeleteEachRemovesIds`, `BulkDeleteRemovesRequested`) assume, as `CustomersListTable.ExactRows`, that `get_core_object` finds exactly the stored row and `delete` removes exactly that row, and that every row is stored under its own id (`WellKeyed`).
- **WordPress helpers.** `sanitize_text_field`, `sanitize_key`, `is_email`, `get_user_by`, `strtotime`, `gmdate`, `wp_verify_nonce` and `affwp_get_affiliate` are parameters. `get_items_per_page` is a parameter too (`perPage`), which WordPress keeps at 1 or more; the table's own default of 30 rows is passed to it and so is not part of the model. `current_action()` and `$_GET`/`$_REQUEST` are parameters.
- **Actions and filters.** `do_action` hooks are not modelled. The `affwp_overview_highest_converting_urls_count` filter is the `count` parameter, whose default is `DefaultCount`.
- **Rendering.** HTML output, admin screens, the CLI commands, privacy tools and opt-in platforms are not modelled, and neither are the constructor's table name and REST endpoints.
- **Converting-URL keys.** `array_count_values` turns integer-like referrers into integer keys. URLs are kept as strings here.
- HighestConvertingUrls.Sort: the insertion it is built from is stable, as PHP 8's `arsort` is, but stability is not stated as a lemma; only the permutation and the order are.
- CustomersDb.EffectiveOrder: under PHP 8, `strtoupper` on an array `order` throws a TypeError (class-customers-db.php:235); the model reads the array as the string "Array" and returns "ASC".
- CustomersDb.EffectiveOrderby: under PHP 8, `array_key_exists` with an array or object `orderby` throws a TypeError (class-customers-db.php:252); the model falls back to the primary key.
- Php.ToStr: casting an array to a string gives "Array" with a warning, and casting an object without `__toString` throws an Error; the model returns a string in both cases instead of failing.
- HighestConvertingUrls.HighestConvertingCorrect: it does not state that the shown URLs are distinct. Distinctness is proved for the unsorted tally (`TallyDistinct`).
- CustomersDb.GetCustomers: the result on a miss is whatever `get_results` returns, so the contract does not say which rows match the WHERE clause.

=== FILE: converting_urls.dfy ===
/** The aggregation behind the "Highest Converting URLs" overview box: the
    visits that led to a referral are tallied by referrer (an empty referrer
    counts as 'direct'), the tally is sorted by decreasing count, and the
    first `count` entries are kept. */
module HighestConvertingUrls {
  import opened Php

  /** The number of URLs shown unless a filter changes it. */
  const DefaultCount := 5

  /** The two visit fields the box reads. */
  datatype VisitRow = VisitRow(referrer: string, referralId: Value)

  /** A (URL, conversions) entry of the tally. */
  type Entry = (string, nat)

  /** A visit converted when its referral id is not empty. */
  predicate Converted(v: VisitRow) {
    !Empty(v.referralId)
  }

  /** The URL a visit is counted under. */
  function Label(referrer: string): (u: string)
    ensures u != ""
    ensures Empty(VStr(referrer)) <==> u == "direct" && referrer != "direct"
    ensures !Empty(VStr(referrer)) ==> u == referrer
  {
    if Empty(VStr(referrer)) then "direct" else referrer
  }

  /** The labels of the converted visits, in visit order. */
  function ConvertedLabels(rows: seq<VisitRow>): (urls: seq<string>)
    ensures |urls| <= |rows|
    ensures forall i :: 0 <= i < |urls| ==> urls[i] != ""
  {
    if |rows| == 0 then []
    else (if Converted(rows[0]) then [Label(rows[0].referrer)] else []) + ConvertedLabels(rows[1..])
  }

  /** Independent reference: how many converted visits are counted under `u`. */
  function Conversions(rows: seq<VisitRow>, u: string): nat
  {
    if |rows| == 0 then 0
    else (if Converted(rows[0]) && Label(rows[0].referrer) == u then 1 else 0) + Conversions(rows[1..], u)
  }

  /** The labels hold each URL once per converted visit counted under it. */
  lemma {:induction false} LabelsCountConversions(rows: seq<VisitRow>, u: string)
    ensures multiset(ConvertedLabels(rows))[u] == Conversions(rows, u)
  {
    if |rows| > 0 {
      LabelsCountConversions(rows[1..], u);
      var head := if Converted(rows[0]) then [Label(rows[0].referrer)] else [];
      assert multiset(ConvertedLabels(rows)) == multiset(head) + multiset(ConvertedLabels(rows[1..]));
    }
  }

  // ----- array_count_values -----

  /** The URLs of a tally, in order. */
  function Urls(es: seq<Entry>): (us: seq<string>)
    ensures |us| == |es|
    ensures forall i :: 0 <= i < |es| ==> us[i] == es[i].0
  {
    seq(|es|, i requires 0 <= i < |es| => es[i].0)
  }

  predicate DistinctUrls(es: seq<Entry>) {
    forall i, j :: 0 <= i < j < |es| ==> es[i].0 != es[j].0
  }

  /** The count recorded for `u`, 0 when absent. */
  function CountOf(es: seq<Entry>, u: string): nat {
    if |es| == 0 then 0
    else if es[0].0 == u then es[0].1
    else CountOf(es[1..], u)
  }

  function Total(es: seq<Entry>): nat {
    if |es| == 0 then 0 else es[0].1 + Total(es[1..])
  }

  /** Counting one more occurrence of `u`: its entry is incremented in place,
      or a new entry is appended. */
  function Tally(es: seq<Entry>, u: string): (r: seq<Entry>)
    ensures |r| == |es| || |r| == |es| + 1
    ensures |r| > 0
  {
    if |es| == 0 then [(u, 1)]
    else if es[0].0 == u then [(u, es[0].1 + 1)] + es[1..]
    else [es[0]] + Tally(es[1..], u)
  }

  lemma UrlsCons(e: Entry, es: seq<Entry>)
    ensures Urls([e] + es) == [e.0] + Urls(es)
  {
    var l := Urls([e] + es);
    var r := [e.0] + Urls(es);
    assert |l| == |r|;
    forall i | 0 <= i < |l| ensures l[i] == r[i] {
      if i > 0 {
        assert ([e] + es)[i] == es[i - 1];
      }
    }
  }

  /** Incrementing the first entry keeps the URLs. */
  lemma TallyUrlsAtHead(es: seq<Entry>, u: string)
    requires |es| > 0 && es[0].0 == u
    ensures u in Urls(es) && Urls(Tally(es, u)) == Urls(es)
  {
    var rest := es[1..];
    assert es == [es[0]] + rest;
    assert Tally(es, u) == [(u, es[0].1 + 1)] + rest;
    UrlsCons(es[0], rest);
    UrlsCons((u, es[0].1 + 1), rest);
    assert Urls(es) == [u] + Urls(rest);
  }

  /** Past a different first entry, membership and the URLs of the tally
      are those of the rest. */
  lemma TallyUrlsPastHead(es: seq<Entry>, u: string)
    requires |es| > 0 && es[0].0 != u
    ensures (u in Urls(es)) == (u in Urls(es[1..]))
    ensures Urls(es) == [es[0].0] + Urls(es[1..])
    ensures Urls(Tally(es, u)) == [es[0].0] + Urls(Tally(es[1..], u))
  {
    var rest := es[1..];
    assert es == [es[0]] + rest;
    UrlsCons(es[0], rest);
    UrlsCons(es[0], Tally(rest, u));
  }

  lemma {:induction false} TallyUrls(es: seq<Entry>, u: string)
    ensures Urls(Tally(es, u)) == if u in Urls(es) then Urls(es) else Urls(es) + [u]
  {
    if |es| == 0 {
      assert Urls([(u, 1)]) == [u];
    } else if es[0].0 == u {
      TallyUrlsAtHead(es, u);
    } else {
      TallyUrlsPastHead(es, u);
      TallyUrls(es[1..], u);
      var x, tail := es[0].0, Urls(es[1..]);
      if u !in tail {
        assert [x] + (tail + [u]) == ([x] + tail) + [u];
      }
    }
  }

  lemma {:induction false} TallyCounts(es: seq<Entry>, u: string, k: string)
    ensures CountOf(Tally(es, u), k) == CountOf(es, k) + (if k == u then 1 else 0)
  {
    if |es| > 0 && es[0].0 != u {
      TallyCounts(es[1..], u, k);
    }
  }

  lemma {:induction false} TallyTotal(es: seq<Entry>, u: string)
    ensures Total(Tally(es, u)) == Total(es) + 1
  {
    if |es| > 0 && es[0].0 != u {
      TallyTotal(es[1..], u);
    }
  }

  /** `array_count_values`: one entry per distinct URL, in order of first
      occurrence. */
  function CountValues(urls: seq<string>): (es: seq<Entry>)
    ensures |es| <= |urls|
    ensures |urls| > 0 ==> |es| > 0
  {
    if |urls| == 0 then [] else Tally(CountValues(urls[..|urls| - 1]), urls[|urls| - 1])
  }

  /** Distinct elements of a sequence of URLs. */
  predicate Distinct(us: seq<string>) {
    forall i, j :: 0 <= i < j < |us| ==> us[i] != us[j]
  }

  /** The tally has one entry per distinct URL, in order of first
      occurrence, each with the number of times it occurs, and the counts
      add up to the number of URLs. */
  lemma {:induction false} CountValuesCorrect(urls: seq<string>)
    ensures Distinct(Urls(CountValues(urls)))
    ensures forall u :: u in Urls(CountValues(urls)) <==> u in urls
    ensures forall k :: CountOf(CountValues(urls), k) == multiset(urls)[k]
    ensures Total(CountValues(urls)) == |urls|
  {
    if |urls| > 0 {
      var init, u := urls[..|urls| - 1], urls[|urls| - 1];
      assert urls == init + [u];
      var es := CountValues(init);
      CountValuesCorrect(init);
      TallyUrls(es, u);
      TallyTotal(es, u);
      forall k ensures CountOf(CountValues(urls), k) == multiset(urls)[k] {
        TallyCounts(es, u, k);
      }
    }
  }

  /** In a tally with distinct URLs, each entry's count is the one `CountOf` finds. */
  lemma {:induction false} CountOfEntry(es: seq<Entry>, i: int)
    requires DistinctUrls(es) && 0 <= i < |es|
    ensures CountOf(es, es[i].0) == es[i].1
  {
    if i > 0 {
      assert es[0].0 != es[i].0;
      CountOfEntry(es[1..], i - 1);
    }
  }

  // ----- arsort -----

  /** Non-increasing by count. */
  predicate SortedDesc(es: seq<Entry>) {
    forall i, j :: 0 <= i < j < |es| ==> es[i].1 >= es[j].1
  }

  /** Places `x` after every entry whose count is at least its own. */
  function Insert(x: Entry, es: seq<Entry>): (r: seq<Entry>)
    ensures |r| == |es| + 1
    ensures multiset(r) == multiset(es) + multiset{x}
  {
    if |es| == 0 then [x]
    else if es[0].1 < x.1 then [x] + es
    else
      var t := Insert(x, es[1..]);
      assert es == [es[0]] + es[1..];
      [es[0]] + t
  }

  /** A bound on every count survives inserting an entry within it. */
  lemma {:induction false} InsertBounded(x: Entry, es: seq<Entry>, b: nat)
    requires x.1 <= b && forall i :: 0 <= i < |es| ==> es[i].1 <= b
    ensures forall i :: 0 <= i < |Insert(x, es)| ==> Insert(x, es)[i].1 <= b
  {
    if |es| > 0 && es[0].1 >= x.1 {
      InsertBounded(x, es[1..], b);
      var t := Insert(x, es[1..]);
      assert Insert(x, es) == [es[0]] + t;
    }
  }

  lemma {:induction false} InsertSorted(x: Entry, es: seq<Entry>)
    requires SortedDesc(es)
    ensures SortedDesc(Insert(x, es))
  {
    if |es| > 0 && es[0].1 >= x.1 {
      var rest := es[1..];
      InsertSorted(x, rest);
      InsertBounded(x, rest, es[0].1);
      var t := Insert(x, rest);
      var r := [es[0]] + t;
      assert Insert(x, es) == r;
      forall i, j | 0 <= i < j < |r| ensures r[i].1 >= r[j].1 {
        assert r[j] == t[j - 1];
        if i > 0 {
          assert r[i] == t[i - 1];
        }
      }
    }
  }

  /** `arsort`: a stable sort by decreasing count. */
  function Sort(es: seq<Entry>): (r: seq<Entry>)
    ensures |r| == |es|
    ensures multiset(r) == multiset(es)
  {
    if |es| == 0 then []
    else
      var init := es[..|es| - 1];
      assert es == init + [es[|es| - 1]];
      Insert(es[|es| - 1], Sort(init))
  }

  lemma {:induction false} SortSorted(es: seq<Entry>)
    ensures SortedDesc(Sort(es))
  {
    if |es| > 0 {
      SortSorted(es[..|es| - 1]);
      InsertSorted(es[|es| - 1], Sort(es[..|es| - 1]));
    }
  }

  // ----- array_slice -----

  /** `array_slice( $a, 0, $count, true )`: the first `count` entries; a
      negative `count` drops that many from the end. */
  function Slice(es: seq<Entry>, count: int): (r: seq<Entry>)
    ensures count >= 0 ==> |r| == if count < |es| then count else |es|
    ensures count < 0 ==> |r| == if |es| + count > 0 then |es| + count else 0
    ensures r <= es
  {
    var n := if count >= 0 then (if count < |es| then count else |es|)
             else (if |es| + count > 0 then |es| + count else 0);
    es[..n]
  }

  /** The URLs shown and their conversions. */
  function HighestConverting(rows: seq<VisitRow>, count: int): (r: seq<Entry>)
    ensures count >= 0 ==> |r| <= count
    ensures forall e :: e in r ==> e in CountValues(ConvertedLabels(rows))
  {
    var tally := CountValues(ConvertedLabels(rows));
    var sorted := Sort(tally);
    var r := Slice(sorted, count);
    assert forall e :: e in r ==> e in multiset(sorted);
    r
  }

  /** Each entry of the tally is a URL with its true number of conversions,
      which is positive. */
  lemma TallyIsConversions(rows: seq<VisitRow>, k: int)
    requires 0 <= k < |CountValues(ConvertedLabels(rows))|
    ensures var e := CountValues(ConvertedLabels(rows))[k];
            e.1 == Conversions(rows, e.0) && e.1 > 0
  {
    var urls := ConvertedLabels(rows);
    TallyEntryCounts(urls, k);
    LabelsCountConversions(rows, CountValues(urls)[k].0);
  }

  /** Each tally entry records how often its URL occurs, at least once. */
  lemma TallyEntryCounts(urls: seq<string>, k: int)
    requires 0 <= k < |CountValues(urls)|
    ensures var e := CountValues(urls)[k];
            e.1 == multiset(urls)[e.0] && e.1 > 0
  {
    var tally := CountValues(urls);
    var u := tally[k].0;
    TallyDistinct(urls);
    CountOfEntry(tally, k);
    CountValuesCorrect(urls);
    assert Urls(tally)[k] == u;
    assert u in urls;
  }

  /** The same holds after sorting. */
  lemma SortedTallyIsConversions(rows: seq<VisitRow>, i: int)
    requires 0 <= i < |Sort(CountValues(ConvertedLabels(rows)))|
    ensures var e := Sort(CountValues(ConvertedLabels(rows)))[i];
            e.1 == Conversions(rows, e.0) && e.1 > 0
  {
    var tally := CountValues(ConvertedLabels(rows));
    var sorted := Sort(tally);
    assert sorted[i] in multiset(tally);
    var k :| 0 <= k < |tally| && tally[k] == sorted[i];
    TallyIsConversions(rows, k);
  }

  lemma TallyDistinct(urls: seq<string>)
    ensures DistinctUrls(CountValues(urls))
  {
    var tally := CountValues(urls);
    CountValuesCorrect(urls);
    forall i, j | 0 <= i < j < |tally| ensures tally[i].0 != tally[j].0 {
      assert Urls(tally)[i] != Urls(tally)[j];
    }
  }

  /** A URL that is not shown has no more conversions than any shown one. */
  lemma LeftOutIsNotHigher(rows: seq<VisitRow>, count: int, i: int, u: string)
    requires 0 <= i < |HighestConverting(rows, count)|
    requires u in ConvertedLabels(rows) && u !in Urls(HighestConverting(rows, count))
    ensures Conversions(rows, u) <= HighestConverting(rows, count)[i].1
  {
    var urls := ConvertedLabels(rows);
    var tally := CountValues(urls);
    var sorted := Sort(tally);
    var r := HighestConverting(rows, count);
    CountValuesCorrect(urls);
    SortSorted(tally);
    assert u in Urls(tally);
    var k :| 0 <= k < |tally| && Urls(tally)[k] == u;
    assert tally[k] in multiset(sorted);
    var j :| 0 <= j < |sorted| && sorted[j] == tally[k];
    assert r[i] == sorted[i];
    SortedTallyIsConversions(rows, j);
  }

  /** Every shown entry is a URL with its true number of conversions; the
      entries are in decreasing order of conversions; at most `count` are
      shown (with the default, five). */
  lemma HighestConvertingCorrect(rows: seq<VisitRow>, count: int)
    ensures var r := HighestConverting(rows, count);
            && (forall i :: 0 <= i < |r| ==> r[i].1 == Conversions(rows, r[i].0) && r[i].1 > 0)
            && SortedDesc(r)
            && (count >= 0 ==> |r| <= count)
  {
    var sorted := Sort(CountValues(ConvertedLabels(rows)));
    var r := HighestConverting(rows, count);
    SortSorted(CountValues(ConvertedLabels(rows)));
    forall i | 0 <= i < |r| ensures r[i].1 == Conversions(rows, r[i].0) && r[i].1 > 0 {
      assert r[i] == sorted[i];
      SortedTallyIsConversions(rows, i);
    }
  }

  /** With the default count the box shows the five best URLs, or every
      converted URL when there are fewer. */
  lemma DefaultBoxShowsFive(rows: seq<VisitRow>)
    ensures var n := |CountValues(ConvertedLabels(rows))|;
            |HighestConverting(rows, DefaultCount)| == if n < DefaultCount then n else DefaultCount
  {
  }

  /** The tally's counts add up to the number of converted visits. */
  lemma ConversionsAddUp(rows: seq<VisitRow>)
    ensures Total(CountValues(ConvertedLabels(rows))) == |ConvertedLabels(rows)|
    ensures forall u :: CountOf(CountValues(ConvertedLabels(rows)), u) == Conversions(rows, u)
  {
    CountValuesCorrect(ConvertedLabels(rows));
    forall u ensures CountOf(CountValues(ConvertedLabels(rows)), u) == Conversions(rows, u) {
      LabelsCountConversions(rows, u);
    }
  }
}

=== FILE: customer.dfy ===
/** The `AffWP\Customer` object: its fields, their defaults and the `date`
    alias of its magic getter. */
module CustomerObject {
  import opened Php

  /** A customer row. Fields without a declared default start as null (`None`). */
  datatype Customer = Customer(
    customerId: int,
    affiliateIds: seq<int>,
    userId: int,
    firstName: Option<string>,
    lastName: Option<string>,
    email: Option<string>,
    ip: Option<string>,
    dateCreated: Option<string>)

  /** A customer object before any field is filled in. */
  function NewCustomer(): (c: Customer)
    ensures c.customerId == 0 && c.userId == 0
    ensures c.affiliateIds == []
    ensures c.firstName.None? && c.lastName.None? && c.email.None? && c.ip.None? && c.dateCreated.None?
  {
    Customer(0, [], 0, None, None, None, None, None)
  }

  function OptionalString(o: Option<string>): Value {
    match o
    case None => VNull
    case Some(s) => VStr(s)
  }

  /** `$customer->$key` through `Customer::__get`: 'date' reads `date_created`;
      every other key goes to the parent getter, given here as `parent`. */
  function Read(c: Customer, key: string, parent: (Customer, string) -> Value): (v: Value)
    ensures key == "date" ==> v == OptionalString(c.dateCreated)
    ensures key != "date" ==> v == parent(c, key)
  {
    if key == "date" then OptionalString(c.dateCreated) else parent(c, key)
  }

  /** The alias reads the creation date whatever the parent getter does,
      and reading it never consults the parent. */
  lemma DateAliasIgnoresParent(c: Customer, p1: (Customer, string) -> Value, p2: (Customer, string) -> Value)
    ensures Read(c, "date", p1) == Read(c, "date", p2)
    ensures c.dateCreated.Some? ==> Read(c, "date", p1) == VStr(c.dateCreated.value)
  {
  }
}

=== FILE: customer_functions.dfy ===
/** The customer wrapper functions: `affwp_get_customer`,
    `affwp_add_customer`, `affwp_update_customer`, `affwp_delete_customer`. */
module CustomerFunctions {
  import opened Php
  import opened Host
  import opened CustomerObject
  import opened CustomersDb

  /** The id `affwp_get_customer` looks up: an object's `customer_id` as it
      is, `absint` of a numeric value, nothing (`false`) for anything else. */
  function CustomerIdOf(v: Value): (id: Option<Value>)
    ensures id.None? <==> !(v.VObj? && IsSet(v.props, "customer_id")) && !IsNumeric(v)
    ensures v.VObj? && IsSet(v.props, "customer_id") ==> id == Some(v.props["customer_id"])
    ensures IsNumeric(v) ==> id == Some(VInt(AbsInt(v)))
  {
    if v.VObj? && IsSet(v.props, "customer_id") then Some(v.props["customer_id"])
    else if IsNumeric(v) then Some(VInt(AbsInt(v)))
    else None
  }

  /** A numeric id resolves to a non-negative integer, and the decimal
      rendering of an integer resolves to its absolute value. */
  lemma NumericIdsResolveToAbsoluteValue(i: int)
    ensures CustomerIdOf(VInt(i)) == Some(VInt(if i < 0 then -i else i))
    ensures CustomerIdOf(VStr(IntToString(i))) == Some(VInt(if i < 0 then -i else i))
  {
    IntIdResolves(i);
    RenderedIdResolves(i);
  }

  lemma IntIdResolves(i: int)
    ensures CustomerIdOf(VInt(i)) == Some(VInt(if i < 0 then -i else i))
  {
    var v := VInt(i);
    assert IsNumeric(v);
    assert AbsInt(v) == (if i < 0 then -i else i);
    assert CustomerIdOf(v) == Some(VInt(AbsInt(v)));
  }

  lemma RenderedIdResolves(i: int)
    ensures CustomerIdOf(VStr(IntToString(i))) == Some(VInt(if i < 0 then -i else i))
  {
    IntToStringIsNumeric(i);
    IntToStringRoundTrip(i);
    NumericStringResolves(IntToString(i), i);
  }

  lemma NumericStringResolves(s: string, i: int)
    requires IsNumericString(s) && StrToInt(s) == i
    ensures CustomerIdOf(VStr(s)) == Some(VInt(if i < 0 then -i else i))
  {
    var v := VStr(s);
    assert IsNumeric(v);
    assert AbsInt(v) == (if i < 0 then -i else i);
    assert CustomerIdOf(v) == Some(VInt(AbsInt(v)));
  }

  /** `affwp_get_customer( $customer )`. */
  function GetCustomer(table: Table, v: Value, backend: Backend): (c: Option<Customer>)
    ensures CustomerIdOf(v).None? ==> c.None?
    ensures CustomerIdOf(v).Some? ==> c == backend.getObject(table, CustomerIdOf(v).value)
  {
    match CustomerIdOf(v)
    case None => None
    case Some(id) => backend.getObject(table, id)
  }

  /** The field arguments built by `affwp_add_customer` and `affwp_update_customer`. */
  function FieldArgs(data: Args, wp: Wp): (a: Args)
    ensures a.Keys == {"first_name", "last_name", "email", "affiliate_id"}
    ensures forall k :: k in a && Empty(Get(data, k)) ==> a[k] == VStr("")
    ensures forall k :: k in a && k != "affiliate_id" && !Empty(Get(data, k)) ==>
              a[k] == VStr(wp.sanitizeTextField(ToStr(data[k])))
    ensures !Empty(Get(data, "affiliate_id")) ==> a["affiliate_id"] == VInt(AbsInt(data["affiliate_id"]))
  {
    map[
      "first_name" := TextField(data, "first_name", wp),
      "last_name" := TextField(data, "last_name", wp),
      "email" := TextField(data, "email", wp),
      "affiliate_id" := if Empty(Get(data, "affiliate_id")) then VStr("") else VInt(AbsInt(data["affiliate_id"]))]
  }

  function TextField(data: Args, k: string, wp: Wp): Value {
    if Empty(Get(data, k)) then VStr("") else VStr(wp.sanitizeTextField(ToStr(data[k])))
  }

  /** `affwp_add_customer( $data )`: the new id, or nothing for `false`.
      `token` is the `last_changed` value the write rotates in. */
  function AddCustomer(store: Store, data: Args, wp: Wp, backend: Backend, token: string): (r: (Option<int>, Store))
    ensures var (res, t) := backend.insert(store.table, AddArgs(FieldArgs(data, wp), wp));
            && (r.0.Some? <==> res.Some? && res.value != 0)
            && (r.0.Some? ==> r.0 == res)
            && r.1 == Rotate(Store(t, store.cache), token)
  {
    var (id, s) := Add(store, FieldArgs(data, wp), wp, backend, token);
    if id.Some? && !Empty(VInt(id.value)) then (id, s) else (None, s)
  }

  /** `insert` receives exactly the four field arguments and `user_id` 0. */
  lemma AddCustomerInsertArgs(data: Args, wp: Wp)
    ensures AddArgs(FieldArgs(data, wp), wp) == FieldArgs(data, wp)["user_id" := VInt(0)]
  {
    var f := FieldArgs(data, wp);
    var a := AddArgs(f, wp);
    assert !IsSet(f, "date_created");
    assert a.Keys == f.Keys + {"user_id"};
  }

  /** `affwp_update_customer( $data )`: whether the update happened, and the
      store afterwards. `$customer->ID` is read as the customer's id; an
      update that reaches the database rotates `last_changed` to `token`. */
  function UpdateCustomer(store: Store, data: Args, wp: Wp, backend: Backend, token: string): (r: (bool, Store))
    ensures Empty(Get(data, "customer_id")) ==> r == (false, store)
    ensures GetCustomer(store.table, Get(data, "customer_id"), backend).None? ==> r == (false, store)
    ensures !Empty(Get(data, "customer_id")) && GetCustomer(store.table, data["customer_id"], backend).Some? ==>
              var c := GetCustomer(store.table, data["customer_id"], backend).value;
              var (ok, t) := backend.update(store.table, c.customerId, FieldArgs(data, wp));
              r == (ok, Rotate(Store(t, store.cache), token))
  {
    if Empty(Get(data, "customer_id")) then (false, store)
    else
      match GetCustomer(store.table, data["customer_id"], backend)
      case None => (false, store)
      case Some(c) =>
        var (ok, t) := backend.update(store.table, c.customerId, FieldArgs(data, wp));
        (ok, Rotate(Store(t, store.cache), token))
  }

  /** Update succeeds exactly when the id is given, the customer exists and
      the underlying update succeeds. */
  lemma UpdateSucceedsIff(store: Store, data: Args, wp: Wp, backend: Backend, token: string)
    ensures UpdateCustomer(store, data, wp, backend, token).0 <==>
              && !Empty(Get(data, "customer_id"))
              && GetCustomer(store.table, data["customer_id"], backend).Some?
              && backend.update(store.table, GetCustomer(store.table, data["customer_id"], backend).value.customerId,
                                FieldArgs(data, wp)).0
  {
  }

  /** `affwp_delete_customer( $customer )`; a delete that reaches the
      database rotates `last_changed` to `token`. */
  function DeleteCustomer(store: Store, v: Value, backend: Backend, token: string): (r: (bool, Store))
    ensures GetCustomer(store.table, v, backend).None? ==> r == (false, store)
    ensures GetCustomer(store.table, v, backend).Some? ==>
              var (ok, t) := backend.delete(store.table, GetCustomer(store.table, v, backend).value.customerId);
              r == (ok, Rotate(Store(t, store.cache), token))
  {
    match GetCustomer(store.table, v, backend)
    case None => (false, store)
    case Some(c) =>
      var (ok, t) := backend.delete(store.table, c.customerId);
      (ok, Rotate(Store(t, store.cache), token))
  }

  /** Values that are neither customer objects nor numeric delete nothing. */
  lemma DeleteUnresolvableIsNoOp(store: Store, v: Value, backend: Backend, token: string)
    requires !v.VObj? && !IsNumeric(v)
    ensures DeleteCustomer(store, v, backend, token) == (false, store)
  {
  }
}

=== FILE: customers_db.dfy ===
/** `Affiliate_WP_Customers_DB`: normalisation of the loosely typed query
    arguments, assembly of the WHERE clause, ordering and projection, the
    read-through cache keyed on the count flag, the normalised arguments and
    the table's `last_changed` token, and `add`.

    The table is a map from customer id to row and the cache a map from
    structural keys to values, both threaded through a `Store`. The unseen
    base-class operations are the function-valued fields of `Backend`. */
module CustomersDb {
  import opened Php
  import opened Host
  import opened CustomerObject

  /** The primary key as written in the constructor (the column itself is `customer_id`). */
  const PrimaryKey := "customemr_id"
  /** The limit that stands for "no limit". */
  const Unbounded := 999999999999

  type Table = map<int, Customer>

  /** How `get_results` post-processes each row. */
  datatype Callback = NoCallback | IntvalCallback | GetCustomerCallback

  /** The clauses handed to `get_results`. */
  datatype Clauses = Clauses(fields: string, join: string, where: string, orderby: string, order: string, count: bool)

  /** The base class `Affiliate_WP_DB`, whose code is not part of this model. */
  datatype Backend = Backend(
    /** `insert( $args, 'customer' )`: the new id (or failure) and the table afterwards. */
    insert: (Table, Args) -> (Option<int>, Table),
    /** `update( $id, $args, '', 'customer' )`: success and the table afterwards. */
    update: (Table, int, Args) -> (bool, Table),
    /** `delete( $id, 'customer' )`: success and the table afterwards. */
    delete: (Table, int) -> (bool, Table),
    /** `get_results( $clauses, $args, $callback )` run against the table. */
    getResults: (Clauses, Args, Callback, Table) -> Value,
    /** `parse_fields( $fields )`. */
    parseFields: Value -> string,
    /** `prepare_date_query( $where, $date, $column )`. */
    prepareDateQuery: (string, Value, string) -> string,
    /** `get_core_object( $id, 'AffWP\Customer' )`, or nothing. */
    getObject: (Table, Value) -> Option<Customer>)

  /** A key of the `customers` cache group: the `last_changed` token, or a
      query result keyed on the count flag, the normalised arguments and the
      token in force when it was stored. */
  datatype CacheKey = LastChanged | QueryKey(countFlag: bool, args: Args, token: string)

  datatype Store = Store(table: Table, cache: map<CacheKey, Value>)

  // ----- columns -----

  /** `get_columns()`: column name to format. */
  function Columns(): (cols: map<string, string>)
    ensures cols.Keys == {"customer_id", "user_id", "email", "first_name", "last_name", "ip", "date_created"}
    ensures forall c :: c in cols ==> cols[c] == "%d" || cols[c] == "%s"
    ensures forall c :: c in cols ==> (cols[c] == "%d" <==> c == "customer_id" || c == "user_id")
  {
    map["customer_id" := "%d", "user_id" := "%d", "email" := "%s", "first_name" := "%s",
        "last_name" := "%s", "ip" := "%s", "date_created" := "%s"]
  }

  /** The primary key as written names no column of the table, so the
      ordering fallback orders by a column that does not exist. */
  lemma PrimaryKeyIsNotAColumn()
    ensures PrimaryKey !in Columns()
    ensures "date" !in Columns()
  {
  }

  /** `get_column_defaults()` at time `now`. */
  function ColumnDefaults(wp: Wp, now: int): (d: Args)
    ensures d.Keys == {"date_created"}
    ensures d["date_created"] == VStr(wp.gmDate(now))
  {
    map["date_created" := VStr(wp.gmDate(now))]
  }

  // ----- argument normalisation -----

  /** The defaults of `get_customers`. */
  function Defaults(): Args {
    map["number" := VInt(20), "offset" := VInt(0), "exclude" := VArr([]), "user_id" := VInt(0),
        "affiliate_id" := VInt(0), "status" := VStr(""), "order" := VStr("DESC"),
        "orderby" := VStr("customer_id"), "fields" := VStr("")]
  }

  /** The arguments after defaults, the `date_created` rename and the limit
      fix, as the WHERE clause and the projection read them. */
  function Prepared(args: Args): (p: Args)
    ensures forall k :: k in Defaults() ==> k in p
    ensures "number" in p && !LessThanOne(p["number"])
    ensures Empty(Get(p, "date_created"))
  {
    var a := ParseArgs(args, Defaults());
    DefaultKeys();
    var b := RenameDate(a);
    assert "number" in b && b["number"] == a["number"];
    FixLimit(b)
  }

  /** What `Prepared` does to each argument: a non-empty `date_created`
      becomes `date`; `number` below one becomes the no-limit value, and a
      missing one the default 20; every other given argument is kept; no
      key appears that was neither given nor defaulted, except `date`. */
  lemma PreparedArgs(args: Args)
    ensures var p := Prepared(args);
            && (!Empty(Get(args, "date_created")) ==> "date" in p && p["date"] == args["date_created"])
            && (Empty(Get(args, "date_created")) ==> Get(p, "date") == Get(args, "date"))
            && ("number" in args && !LessThanOne(args["number"]) ==> p["number"] == args["number"])
            && ("number" !in args ==> p["number"] == VInt(20))
            && ("number" in args && LessThanOne(args["number"]) ==> p["number"] == VInt(Unbounded))
            && (forall k :: k in args && k != "number" && k != "date" && k != "date_created" ==> k in p && p[k] == args[k])
            && (forall k :: k in p ==> k in args || k in Defaults() || k == "date")
            && (forall k :: k in Defaults() && k !in args && k != "number" ==> p[k] == Defaults()[k])
  {
    PreparedDate(args);
    PreparedNumber(args);
    PreparedKeeps(args);
    PreparedDefaults(args);
  }

  /** A default the caller does not override is used as it stands: DESC by
      `customer_id`, offset 0, no exclusions, user 0, affiliate 0, no status
      and the default projection. */
  lemma PreparedDefaults(args: Args)
    ensures var p := Prepared(args);
            forall k :: k in Defaults() && k !in args && k != "number" ==> p[k] == Defaults()[k]
  {
    var a := ParseArgs(args, Defaults());
    DefaultKeys();
    var b := RenameDate(a);
    assert Prepared(args) == FixLimit(b);
    forall k | k in Defaults() && k !in args && k != "number"
      ensures Prepared(args)[k] == Defaults()[k]
    {
      assert a[k] == Defaults()[k];
      assert b[k] == a[k];
      FixLimitKeeps(b, k);
    }
  }

  /** A query that gives neither `order` nor `orderby` sorts by `customer_id`,
      newest first. */
  lemma DefaultOrdering(args: Args, count: bool, wp: Wp, backend: Backend)
    requires "order" !in args && "orderby" !in args
    ensures Normalise(args)["order"] == VStr("DESC") && Normalise(args)["orderby"] == VStr("customer_id")
    ensures QueryClauses(args, count, wp, backend).order == "DESC"
    ensures QueryClauses(args, count, wp, backend).orderby == "customer_id"
  {
    DefaultSort(args);
    DefaultEffectiveSort(Prepared(args));
    NormaliseAgrees(args);
    ClausesSort(args, count, wp, backend);
  }

  lemma DefaultEffectiveSort(p: Args)
    requires "order" in p && "orderby" in p
    requires p["order"] == VStr("DESC") && p["orderby"] == VStr("customer_id")
    ensures EffectiveOrderby(p["orderby"]) == "customer_id" && EffectiveOrder(p["order"]) == "DESC"
  {
    assert "customer_id" in Columns();
  }

  lemma DefaultSort(args: Args)
    requires "order" !in args && "orderby" !in args
    ensures Prepared(args)["order"] == VStr("DESC") && Prepared(args)["orderby"] == VStr("customer_id")
  {
    PreparedDefaults(args);
    DefaultKeys();
  }

  /** The clauses sort as the prepared `orderby` and `order` say. */
  lemma ClausesSort(args: Args, count: bool, wp: Wp, backend: Backend)
    ensures var p := Prepared(args);
            && QueryClauses(args, count, wp, backend).order == EffectiveOrder(p["order"])
            && QueryClauses(args, count, wp, backend).orderby == EffectiveOrderby(p["orderby"])
  {
  }


  lemma PreparedDate(args: Args)
    ensures var p := Prepared(args);
            && (!Empty(Get(args, "date_created")) ==> "date" in p && p["date"] == args["date_created"])
            && (Empty(Get(args, "date_created")) ==> Get(p, "date") == Get(args, "date"))
  {
    var a := ParseArgs(args, Defaults());
    DefaultKeys();
    var b := RenameDate(a);
    assert Get(a, "date_created") == Get(args, "date_created");
    assert Get(a, "date") == Get(args, "date");
    assert Prepared(args) == FixLimit(b);
    FixLimitKeeps(b, "date");
  }

  lemma PreparedNumber(args: Args)
    ensures var p := Prepared(args);
            && ("number" in args && !LessThanOne(args["number"]) ==> p["number"] == args["number"])
            && ("number" !in args ==> p["number"] == VInt(20))
            && ("number" in args && LessThanOne(args["number"]) ==> p["number"] == VInt(Unbounded))
  {
    var a := ParseArgs(args, Defaults());
    DefaultKeys();
    var b := RenameDate(a);
    assert b["number"] == a["number"];
    assert "number" !in args ==> a["number"] == VInt(20);
    assert Prepared(args) == FixLimit(b);
  }

  lemma PreparedKeeps(args: Args)
    ensures var p := Prepared(args);
            && (forall k :: k in args && k != "number" && k != "date" && k != "date_created" ==> k in p && p[k] == args[k])
            && (forall k :: k in p ==> k in args || k in Defaults() || k == "date")
  {
    var a := ParseArgs(args, Defaults());
    DefaultKeys();
    var b := RenameDate(a);
    assert Prepared(args) == FixLimit(b);
  }

  /** A `number` below one stands for no limit. */
  function FixLimit(b: Args): (c: Args)
    requires "number" in b
    ensures c.Keys == b.Keys && !LessThanOne(c["number"])
    ensures !LessThanOne(b["number"]) ==> c == b
    ensures LessThanOne(b["number"]) ==> c == b["number" := VInt(Unbounded)]
  {
    if LessThanOne(b["number"]) then b["number" := VInt(Unbounded)] else b
  }

  lemma DefaultKeys()
    ensures "number" in Defaults() && "date" !in Defaults() && "date_created" !in Defaults()
    ensures "orderby" in Defaults() && "order" in Defaults() && "fields" in Defaults()
  {
  }

  /** A set `date_created` argument is renamed to `date`. */
  function RenameDate(a: Args): (b: Args)
    ensures Empty(Get(b, "date_created"))
    ensures !Empty(Get(a, "date_created")) ==> "date" in b && b["date"] == a["date_created"]
    ensures Empty(Get(a, "date_created")) ==> b == a
    ensures forall k :: k in a && k != "date" && k != "date_created" ==> k in b && b[k] == a[k]
    ensures forall k :: k in b ==> k in a || k == "date"
  {
    if !Empty(Get(a, "date_created")) then (a - {"date_created"})["date" := a["date_created"]] else a
  }

  /** The effective sort direction. */
  function EffectiveOrder(v: Value): (o: string)
    ensures o == "DESC" || o == "ASC"
    ensures o == "DESC" <==> Upper(ToStr(v)) == "DESC"
  {
    if Upper(ToStr(v)) == "DESC" then "DESC" else "ASC"
  }

  /** The effective sort column: 'date' means `date_created`; a column name
      is kept; anything else falls back to the primary key. */
  function EffectiveOrderby(v: Value): (o: string)
    ensures LooseEqualsWord(v, "date") ==> o == "date_created"
    ensures !LooseEqualsWord(v, "date") && v.VStr? && v.s in Columns() ==> o == v.s
    ensures !LooseEqualsWord(v, "date") && !(v.VStr? && v.s in Columns()) ==> o == PrimaryKey
    ensures o == PrimaryKey || o in Columns()
  {
    if LooseEqualsWord(v, "date") then "date_created"
    else if v.VStr? && v.s in Columns() then v.s
    else PrimaryKey
  }

  /** What every normalised argument map satisfies. */
  predicate IsNormalised(a: Args) {
    && (forall k :: k in Defaults() ==> k in a)
    && Empty(Get(a, "date_created"))
    && !LessThanOne(a["number"])
    && (a["order"] == VStr("ASC") || a["order"] == VStr("DESC"))
    && a["orderby"].VStr? && (a["orderby"].s == PrimaryKey || a["orderby"].s in Columns())
  }

  /** The arguments as they are serialized into the cache key and handed to
      `get_results`: `Prepared` with `orderby` and `order` overloaded. */
  function Normalise(args: Args): (n: Args)
    ensures IsNormalised(n)
  {
    var p := Prepared(args);
    DefaultKeys();
    var n := Overload(p);
    assert n["number"] == p["number"] && Get(n, "date_created") == Get(p, "date_created");
    n
  }

  /** `orderby` and `order` replaced by the effective sort. */
  function Overload(p: Args): Args
    requires "orderby" in p && "order" in p
  {
    p["orderby" := VStr(EffectiveOrderby(p["orderby"]))]["order" := VStr(EffectiveOrder(p["order"]))]
  }

  lemma OverloadAgrees(p: Args)
    requires "orderby" in p && "order" in p
    ensures var n := Overload(p);
            && n.Keys == p.Keys
            && (forall k :: k in n && k != "orderby" && k != "order" ==> n[k] == p[k])
            && n["orderby"] == VStr(EffectiveOrderby(p["orderby"]))
            && n["order"] == VStr(EffectiveOrder(p["order"]))
  {
  }

  /** Normalising keeps the prepared keys and values except `orderby` and
      `order`, which become the effective sort. */
  lemma NormaliseAgrees(args: Args)
    ensures var p, n := Prepared(args), Normalise(args);
            && n.Keys == p.Keys
            && (forall k :: k in n && k != "orderby" && k != "order" ==> n[k] == p[k])
            && n["orderby"] == VStr(EffectiveOrderby(p["orderby"]))
            && n["order"] == VStr(EffectiveOrder(p["order"]))
  {
    var p := Prepared(args);
    DefaultKeys();
    assert Normalise(args) == Overload(p);
    OverloadAgrees(p);
  }

  /** Normalised arguments normalise to themselves, so re-issuing a query
      with the arguments stored in its cache key finds the same entry. */
  lemma {:induction false} NormalisedIsFixedPoint(a: Args)
    requires IsNormalised(a)
    ensures Normalise(a) == a
  {
    PreparedFixesNormalised(a);
    DefaultKeys();
    assert Normalise(a) == Overload(a);
    OverloadFixesNormalised(a);
  }

  lemma PreparedFixesNormalised(a: Args)
    requires IsNormalised(a)
    ensures Prepared(a) == a
  {
    var parsed := ParseArgs(a, Defaults());
    assert parsed == a;
    DefaultKeys();
    assert RenameDate(a) == a;
    assert FixLimit(a) == a;
  }

  lemma OverloadFixesNormalised(a: Args)
    requires IsNormalised(a)
    ensures Overload(a) == a
  {
    EffectiveOrderbyFixed(a["orderby"]);
    EffectiveOrderFixed(a["order"]);
  }

  lemma EffectiveOrderbyFixed(v: Value)
    requires v.VStr? && (v.s == PrimaryKey || v.s in Columns())
    ensures EffectiveOrderby(v) == v.s
  {
    PrimaryKeyIsNotAColumn();
    assert v.s != "date";
    assert !LooseEqualsWord(v, "date");
  }

  lemma EffectiveOrderFixed(v: Value)
    requires v == VStr("ASC") || v == VStr("DESC")
    ensures VStr(EffectiveOrder(v)) == v
  {
    if v == VStr("ASC") {
      assert Upper("ASC") == "ASC";
    } else {
      assert Upper("DESC") == "DESC";
    }
  }

  lemma NormaliseIdempotent(args: Args)
    ensures Normalise(Normalise(args)) == Normalise(args)
  {
    NormalisedIsFixedPoint(Normalise(args));
  }

  // ----- the WHERE clause -----

  /** One appended piece of the WHERE string: its connective and its condition. */
  datatype Fragment = Fragment(connective: string, condition: string)

  /** The WHERE string the fragments concatenate to. */
  function Render(fs: seq<Fragment>): string {
    if |fs| == 0 then ""
    else Render(fs[..|fs| - 1]) + fs[|fs| - 1].connective + fs[|fs| - 1].condition
  }

  /** The connective chosen by `empty( $where ) ? 'WHERE ' : 'AND '`. */
  function Connective(before: seq<Fragment>): string {
    if Empty(VStr(Render(before))) then "WHERE " else "AND "
  }

  /** The id list of an `IN( ... )`: `implode( ',', array_map( 'intval', $v ) )`
      for an array, `intval( $v )` otherwise. */
  function IdList(v: Value): string {
    match v
    case VArr(es) => Implode(",", seq(|es|, i requires 0 <= i < |es| => IntToString(IntVal(es[i].1))))
    case _ => IntToString(IntVal(v))
  }

  /** A scalar id and the one-element array holding it give the same list. */
  lemma ScalarIdListMatchesSingleton(v: Value)
    requires !v.VArr?
    ensures IdList(v) == IdList(List([v]))
  {
  }

  /** `get_user_by( 'email', ... )` resolved to an id, 0 when nobody matches. */
  function ResolvedUserId(wp: Wp, email: string): nat {
    match wp.userIdByEmail(email)
    case Some(id) => AbsInt(VInt(id))
    case None => 0
  }

  /** The search condition for `$args['search']`, or nothing when the value
      is neither numeric nor a string. */
  function SearchCondition(v: Value, wp: Wp): (c: Option<string>)
    ensures c.Some? <==> IsNumeric(v) || v.VStr?
    ensures IsNumeric(v) ==> c == Some("`customer_id` IN( " + ToStr(v) + " )")
    ensures !IsNumeric(v) && v.VStr? && wp.isEmail(v.s) ==>
              c == Some("`user_id` = '" + IntToString(ResolvedUserId(wp, v.s)) + "'")
    ensures !IsNumeric(v) && v.VStr? && !wp.isEmail(v.s) ==>
              c == Some("`first_name` LIKE( '" + v.s + "' ) OR `last_name` LIKE( '" + v.s + "' )")
  {
    if IsNumeric(v) then Some("`customer_id` IN( " + ToStr(v) + " )")
    else if v.VStr? then
      if wp.isEmail(v.s) then Some("`user_id` = '" + IntToString(ResolvedUserId(wp, v.s)) + "'")
      else Some("`first_name` LIKE( '" + v.s + "' ) OR `last_name` LIKE( '" + v.s + "' )")
    else None
  }

  /** The exclude fragment, if any. */
  function ExcludeFragments(a: Args): seq<Fragment> {
    if Empty(Get(a, "exclude")) then []
    else [Fragment(Connective([]), "`affiliate_id` NOT IN( " + IdList(a["exclude"]) + " )")]
  }

  /** The user fragment, if any; its connective is always WHERE. */
  function UserFragments(a: Args): seq<Fragment> {
    if Empty(Get(a, "user_id")) then []
    else [Fragment("WHERE ", "`user_id` IN( " + IdList(a["user_id"]) + " ) ")]
  }

  /** After the exclude and user fragments the connective is WHERE exactly
      when neither was added. */
  lemma ConnectiveAfterHead(a: Args)
    ensures var head := ExcludeFragments(a) + UserFragments(a);
            Connective(head) == if |head| == 0 then "WHERE " else "AND "
  {
    var head := ExcludeFragments(a) + UserFragments(a);
    if |head| > 0 {
      var last := head[|head| - 1];
      assert |last.condition| > 1;
      assert Render(head) == Render(head[..|head| - 1]) + last.connective + last.condition;
      assert |Render(head)| > 1;
    }
  }

  /** The fragments appended to `$where` before the date query, in order. */
  function WhereFragments(a: Args, wp: Wp): (fs: seq<Fragment>)
    ensures |fs| <= 3
    ensures !Empty(Get(a, "exclude")) ==>
              |fs| >= 1 && fs[0] == Fragment("WHERE ", "`affiliate_id` NOT IN( " + IdList(a["exclude"]) + " )")
    ensures var head := ExcludeFragments(a) + UserFragments(a);
            && |head| <= |fs| && fs[..|head|] == head
            && (|fs| > |head| <==> !Empty(Get(a, "search")) && SearchCondition(a["search"], wp).Some?)
            && (|fs| > |head| ==>
                  fs[|head|] == Fragment(if |head| == 0 then "WHERE " else "AND ",
                                         SearchCondition(a["search"], wp).value))
  {
    var head := ExcludeFragments(a) + UserFragments(a);
    ConnectiveAfterHead(a);
    var tail := SearchFragments(a, wp, Connective(head));
    assert (head + tail)[..|head|] == head;
    assert !Empty(Get(a, "exclude")) ==> (head + tail)[0] == ExcludeFragments(a)[0];
    head + tail
  }

  /** The search fragment, if the search argument yields a condition. */
  function SearchFragments(a: Args, wp: Wp, connective: string): (fs: seq<Fragment>)
    ensures |fs| <= 1
    ensures |fs| == 1 <==> !Empty(Get(a, "search")) && SearchCondition(a["search"], wp).Some?
    ensures |fs| == 1 ==> fs[0] == Fragment(connective, SearchCondition(a["search"], wp).value)
  {
    if Empty(Get(a, "search")) then []
    else
      match SearchCondition(a["search"], wp)
      case None => []
      case Some(c) => [Fragment(connective, c)]
  }

  /** When both an exclude list and a user are given, the user fragment opens
      with a second WHERE, directly after the exclude condition. */
  lemma ExcludeAndUserGiveTwoWheres(a: Args, wp: Wp)
    requires !Empty(Get(a, "exclude")) && !Empty(Get(a, "user_id"))
    ensures var fs := WhereFragments(a, wp);
            |fs| >= 2 && fs[0].connective == "WHERE " && fs[1].connective == "WHERE "
  {
  }

  /** `$where` after the optional date query. */
  function Where(a: Args, wp: Wp, backend: Backend): (w: string)
    ensures Empty(Get(a, "date")) ==> w == Render(WhereFragments(a, wp))
    ensures !Empty(Get(a, "date")) ==>
              w == backend.prepareDateQuery(Render(WhereFragments(a, wp)), a["date"], "date_created")
  {
    var w := Render(WhereFragments(a, wp));
    if Empty(Get(a, "date")) then w else backend.prepareDateQuery(w, a["date"], "date_created")
  }

  /** The WHERE clause ignores `customer_id` and `affiliate_id`: neither
      argument is read when the clause is assembled. */
  lemma WhereIgnoresCustomerAndAffiliate(a: Args, c: Value, f: Value, wp: Wp, backend: Backend)
    ensures Where(a["customer_id" := c]["affiliate_id" := f], wp, backend) == Where(a, wp, backend)
  {
    var b := a["customer_id" := c]["affiliate_id" := f];
    assert Get(b, "exclude") == Get(a, "exclude");
    assert Get(b, "user_id") == Get(a, "user_id");
    assert Get(b, "search") == Get(a, "search");
    assert Get(b, "date") == Get(a, "date");
    assert ExcludeFragments(b) == ExcludeFragments(a);
    assert UserFragments(b) == UserFragments(a);
    assert WhereFragments(b, wp) == WhereFragments(a, wp);
  }

  /** The limit does not reach the WHERE clause: a query and the same query
      with any other `number` filter the same rows. */
  lemma LimitDoesNotAffectWhere(a: Args, v: Value, wp: Wp, backend: Backend)
    ensures Where(Prepared(a["number" := v]), wp, backend) == Where(Prepared(a), wp, backend)
  {
    var p1, p2 := Prepared(a["number" := v]), Prepared(a);
    PreparedIgnoresLimit(a, v, "exclude");
    PreparedIgnoresLimit(a, v, "user_id");
    PreparedIgnoresLimit(a, v, "search");
    PreparedIgnoresLimit(a, v, "date");
    WhereReadsOnlyFilters(p1, p2, wp, backend);
  }

  lemma PreparedIgnoresLimit(a: Args, v: Value, k: string)
    requires k != "number"
    ensures Get(Prepared(a["number" := v]), k) == Get(Prepared(a), k)
  {
    var d := Defaults();
    DefaultKeys();
    var a1, a2 := ParseArgs(a["number" := v], d), ParseArgs(a, d);
    ParsedIgnoresLimit(a, v, k);
    ParsedIgnoresLimit(a, v, "date_created");
    var b1, b2 := RenameDate(a1), RenameDate(a2);
    RenameDateGet(a1, k);
    RenameDateGet(a2, k);
    assert Prepared(a["number" := v]) == FixLimit(b1);
    assert Prepared(a) == FixLimit(b2);
    FixLimitKeeps(b1, k);
    FixLimitKeeps(b2, k);
  }

  lemma ParsedIgnoresLimit(a: Args, v: Value, k: string)
    requires k != "number"
    ensures Get(ParseArgs(a["number" := v], Defaults()), k) == Get(ParseArgs(a, Defaults()), k)
  {
  }

  /** What a key reads after the rename. */
  lemma RenameDateGet(a: Args, k: string)
    ensures Get(RenameDate(a), k)
         == if Empty(Get(a, "date_created")) then Get(a, k)
            else if k == "date" then Get(a, "date_created")
            else if k == "date_created" then VNull
            else Get(a, k)
  {
  }

  lemma FixLimitKeeps(b: Args, k: string)
    requires "number" in b && k != "number"
    ensures Get(FixLimit(b), k) == Get(b, k)
  {
  }

  // ----- projection and clauses -----

  /** The selected fields and the row callback. */
  function Projection(fields: Value, backend: Backend): (r: (string, Callback))
    ensures fields == VStr("ids") ==> r == (PrimaryKey, IntvalCallback)
    ensures fields != VStr("ids") ==> r.0 == backend.parseFields(fields)
    ensures fields != VStr("ids") ==> (r.1 == GetCustomerCallback <==> r.0 == "*")
    ensures fields != VStr("ids") && r.0 != "*" ==> r.1 == NoCallback
  {
    if fields == VStr("ids") then (PrimaryKey, IntvalCallback)
    else
      var f := backend.parseFields(fields);
      (f, if f == "*" then GetCustomerCallback else NoCallback)
  }

  function QueryClauses(args: Args, count: bool, wp: Wp, backend: Backend): (c: Clauses)
    ensures c.join == "" && c.count == count
    ensures c.order == "ASC" || c.order == "DESC"
    ensures c.orderby == PrimaryKey || c.orderby in Columns()
  {
    var p := Prepared(args);
    Clauses(Projection(p["fields"], backend).0, "", Where(p, wp, backend),
            EffectiveOrderby(p["orderby"]), EffectiveOrder(p["order"]), count)
  }

  // ----- the read-through cache -----

  /** The cache after `last_changed` has been read and, when missing or
      falsy, set to `stamp` (the value of `microtime()`). */
  function WithToken(cache: map<CacheKey, Value>, stamp: string): (c: map<CacheKey, Value>)
    ensures LastChanged in c
    ensures LastChanged in cache && !Empty(cache[LastChanged]) ==> c == cache
    ensures !(LastChanged in cache && !Empty(cache[LastChanged])) ==> c == cache[LastChanged := VStr(stamp)]
  {
    if LastChanged in cache && !Empty(cache[LastChanged]) then cache else cache[LastChanged := VStr(stamp)]
  }

  /** The full cache key `"{$key}:{$last_changed}"` of a query. */
  function KeyOf(args: Args, count: bool, cache: map<CacheKey, Value>, stamp: string): (k: CacheKey)
    ensures k.QueryKey? && k.countFlag == count && IsNormalised(k.args)
  {
    QueryKey(count, Normalise(args), ToStr(WithToken(cache, stamp)[LastChanged]))
  }

  /** Re-issuing a query with the arguments stored in its key gives the same key. */
  lemma KeyOfStable(args: Args, count: bool, cache: map<CacheKey, Value>, stamp: string)
    ensures var k := KeyOf(args, count, cache, stamp);
            KeyOf(k.args, count, cache, stamp) == k
  {
    NormaliseIdempotent(args);
  }

  /** Whether the cache answers the query: the key is present with a value other than false. */
  predicate Hit(cache: map<CacheKey, Value>, key: CacheKey) {
    key in cache && cache[key] != VBool(false)
  }

  /** The value `get_results` computes for a query against the table. */
  function Computed(args: Args, count: bool, table: Table, wp: Wp, backend: Backend): Value {
    backend.getResults(QueryClauses(args, count, wp, backend), Normalise(args),
                       Projection(Prepared(args)["fields"], backend).1, table)
  }

  /** `wp_cache_get` of the key, the computed value on a miss, then
      `wp_cache_add`, which never replaces a present key. */
  function ReadThrough(cache: map<CacheKey, Value>, key: CacheKey, computed: Value): (r: (Value, map<CacheKey, Value>))
    ensures Hit(cache, key) ==> r.0 == cache[key]
    ensures !Hit(cache, key) ==> r.0 == computed
    ensures key in cache ==> r.1 == cache
    ensures key !in cache ==> r.1 == cache[key := r.0]
  {
    var cached := if key in cache then cache[key] else VBool(false);
    var results := if cached == VBool(false) then computed else cached;
    (results, if key in cache then cache else cache[key := results])
  }

  /** `get_customers( $args, $count )`: the result and the store afterwards.
      `stamp` is the value `microtime()` would return. */
  function GetCustomers(store: Store, args: Args, count: bool, stamp: string, wp: Wp, backend: Backend): (r: (Value, Store))
    ensures r.1.table == store.table
    ensures var c1 := WithToken(store.cache, stamp);
            var key := KeyOf(args, count, store.cache, stamp);
            && (Hit(c1, key) ==> r.0 == c1[key] && r.1.cache == c1)
            && (!Hit(c1, key) ==> r.0 == Computed(args, count, store.table, wp, backend))
            && key in r.1.cache
            && (key !in c1 ==> r.1.cache == c1[key := r.0])
            && (key in c1 ==> r.1.cache == c1)
  {
    var c1 := WithToken(store.cache, stamp);
    var n := Normalise(args);
    var key := QueryKey(count, n, ToStr(c1[LastChanged]));
    var (results, c2) := ReadThrough(c1, key, Computed(args, count, store.table, wp, backend));
    (results, Store(store.table, c2))
  }

  /** `count( $args )`: a read-through count query. */
  function Count(store: Store, args: Args, stamp: string, wp: Wp, backend: Backend): (r: (Value, Store))
    ensures r == GetCustomers(store, args, true, stamp, wp, backend)
    ensures r.1.table == store.table
    ensures var key := KeyOf(args, true, store.cache, stamp);
            key.countFlag && key in r.1.cache
    ensures !Hit(WithToken(store.cache, stamp), KeyOf(args, true, store.cache, stamp)) ==>
              r.0 == Computed(args, true, store.table, wp, backend)
  {
    GetCustomers(store, args, true, stamp, wp, backend)
  }

  /** Adding under one key keeps every other entry. */
  lemma ReadThroughKeepsOthers(cache: map<CacheKey, Value>, key: CacheKey, computed: Value)
    ensures var c := ReadThrough(cache, key, computed).1;
            && (forall k :: k in cache ==> k in c && c[k] == cache[k])
            && c.Keys <= cache.Keys + {key}
  {
  }

  /** Setting a missing token keeps every other entry and adds only the token. */
  lemma WithTokenKeepsOthers(cache: map<CacheKey, Value>, stamp: string)
    ensures var c := WithToken(cache, stamp);
            && (forall k :: k in cache && k != LastChanged ==> k in c && c[k] == cache[k])
            && c.Keys <= cache.Keys + {LastChanged}
            && (LastChanged !in cache ==> c[LastChanged] == VStr(stamp))
  {
  }

  /** A query leaves every cached entry other than `last_changed` as it was
      (the store uses add semantics) and creates a missing token. */
  lemma QueryNeverOverwrites(store: Store, args: Args, count: bool, stamp: string, wp: Wp, backend: Backend)
    ensures var s := GetCustomers(store, args, count, stamp, wp, backend).1;
            && (forall k :: k in store.cache && k != LastChanged ==> k in s.cache && s.cache[k] == store.cache[k])
            && LastChanged in s.cache
            && (LastChanged !in store.cache ==> s.cache[LastChanged] == VStr(stamp))
            && s.cache.Keys <= store.cache.Keys + {LastChanged, KeyOf(args, count, store.cache, stamp)}
  {
    var c1 := WithToken(store.cache, stamp);
    var key := KeyOf(args, count, store.cache, stamp);
    var r := GetCustomers(store, args, count, stamp, wp, backend);
    WithTokenKeepsOthers(store.cache, stamp);
    AddKeepsOthers(store.cache, c1, r.1.cache, key, r.0);
  }

  /** A token step followed by an add keeps every entry but the token. */
  lemma AddKeepsOthers(c0: map<CacheKey, Value>, c1: map<CacheKey, Value>, c2: map<CacheKey, Value>,
                       key: CacheKey, v: Value)
    requires forall k :: k in c0 && k != LastChanged ==> k in c1 && c1[k] == c0[k]
    requires LastChanged in c1 && c1.Keys <= c0.Keys + {LastChanged}
    requires key in c1 ==> c2 == c1
    requires key !in c1 ==> c2 == c1[key := v]
    ensures forall k :: k in c0 && k != LastChanged ==> k in c2 && c2[k] == c0[k]
    ensures LastChanged in c2 && c2[LastChanged] == c1[LastChanged]
    ensures c2.Keys <= c0.Keys + {LastChanged, key}
  {
  }

  /** On a hit the rows are not consulted: any two tables give the same answer. */
  lemma HitIgnoresTable(t1: Table, t2: Table, cache: map<CacheKey, Value>, args: Args, count: bool,
                        stamp: string, wp: Wp, backend: Backend)
    requires Hit(WithToken(cache, stamp), KeyOf(args, count, cache, stamp))
    ensures GetCustomers(Store(t1, cache), args, count, stamp, wp, backend).0
         == GetCustomers(Store(t2, cache), args, count, stamp, wp, backend).0
  {
  }

  /** Two argument maps that agree on the filters give the same WHERE clause. */
  lemma WhereReadsOnlyFilters(p1: Args, p2: Args, wp: Wp, backend: Backend)
    requires Get(p1, "exclude") == Get(p2, "exclude") && Get(p1, "user_id") == Get(p2, "user_id")
    requires Get(p1, "search") == Get(p2, "search") && Get(p1, "date") == Get(p2, "date")
    ensures Where(p1, wp, backend) == Where(p2, wp, backend)
  {
    assert ExcludeFragments(p1) == ExcludeFragments(p2);
    assert UserFragments(p1) == UserFragments(p2);
    assert WhereFragments(p1, wp) == WhereFragments(p2, wp);
  }

  /** The clauses of a query are determined by its normalised arguments. */
  lemma {:induction false} ClausesFollowNormalised(args: Args, count: bool, wp: Wp, backend: Backend)
    ensures var n := Normalise(args);
            QueryClauses(args, count, wp, backend) == Clauses(Projection(n["fields"], backend).0, "", Where(n, wp, backend), n["orderby"].s, n["order"].s, count)
  {
    var p, n := Prepared(args), Normalise(args);
    NormaliseKeeps(args, "exclude");
    NormaliseKeeps(args, "user_id");
    NormaliseKeeps(args, "search");
    NormaliseKeeps(args, "date");
    NormaliseKeeps(args, "fields");
    WhereReadsOnlyFilters(p, n, wp, backend);
    assert QueryClauses(args, count, wp, backend)
        == Clauses(Projection(p["fields"], backend).0, "", Where(p, wp, backend),
                   EffectiveOrderby(p["orderby"]), EffectiveOrder(p["order"]), count);
    assert n["orderby"].s == EffectiveOrderby(p["orderby"]);
    assert n["order"].s == EffectiveOrder(p["order"]);
  }

  /** Normalising changes nothing but `orderby` and `order`. */
  lemma NormaliseKeeps(args: Args, k: string)
    requires k != "orderby" && k != "order"
    ensures Get(Normalise(args), k) == Get(Prepared(args), k)
  {
    var p := Prepared(args);
    DefaultKeys();
    assert Normalise(args) == Overload(p);
    OverloadKeeps(p, k);
  }

  lemma OverloadKeeps(p: Args, k: string)
    requires "orderby" in p && "order" in p
    requires k != "orderby" && k != "order"
    ensures Get(Overload(p), k) == Get(p, k)
  {
  }

  /** Two queries with the same normalised arguments are the same query. */
  lemma {:induction false} OnlyNormalisedArgsMatter(store: Store, a1: Args, a2: Args, count: bool,
                                                    stamp: string, wp: Wp, backend: Backend)
    requires Normalise(a1) == Normalise(a2)
    ensures GetCustomers(store, a1, count, stamp, wp, backend) == GetCustomers(store, a2, count, stamp, wp, backend)
  {
    ClausesFollowNormalised(a1, count, wp, backend);
    ClausesFollowNormalised(a2, count, wp, backend);
    NormaliseKeeps(a1, "fields");
    NormaliseKeeps(a2, "fields");
    assert Prepared(a1)["fields"] == Normalise(a1)["fields"];
    assert Prepared(a2)["fields"] == Normalise(a2)["fields"];
    assert Computed(a1, count, store.table, wp, backend) == Computed(a2, count, store.table, wp, backend);
    assert KeyOf(a1, count, store.cache, stamp) == KeyOf(a2, count, store.cache, stamp);
  }

  /** Repeating a query with nothing written in between returns the same
      result and leaves the store as the first call left it, whatever token
      `microtime()` yields the second time. (`microtime()` never returns a
      falsy string, hence the requirement on the first token.) */
  lemma {:induction false} RepeatedQueryIsStable(store: Store, args: Args, count: bool, stamp1: string, stamp2: string,
                                                 wp: Wp, backend: Backend)
    requires !Empty(VStr(stamp1))
    ensures var (r1, s1) := GetCustomers(store, args, count, stamp1, wp, backend);
            var (r2, s2) := GetCustomers(s1, args, count, stamp2, wp, backend);
            r2 == r1 && s2 == s1
  {
    var (r1, s1) := GetCustomers(store, args, count, stamp1, wp, backend);
    var c1 := WithToken(store.cache, stamp1);
    var key1 := KeyOf(args, count, store.cache, stamp1);
    assert s1.cache[LastChanged] == c1[LastChanged];
    assert WithToken(s1.cache, stamp2) == s1.cache;
    assert KeyOf(args, count, s1.cache, stamp2) == key1;
    assert key1 in s1.cache;
  }

  /** The token rotation the base class performs on a write (assumed: the
      writing code is not part of this model). */
  function Rotate(store: Store, token: string): (s: Store)
    ensures s.table == store.table
    ensures LastChanged in s.cache && s.cache[LastChanged] == VStr(token)
    ensures forall k :: k in store.cache && k != LastChanged ==> k in s.cache && s.cache[k] == store.cache[k]
  {
    Store(store.table, store.cache[LastChanged := VStr(token)])
  }

  /** No stored query entry carries the token. */
  predicate TokenUnused(cache: map<CacheKey, Value>, token: string) {
    forall k :: k in cache && k.QueryKey? ==> k.token != token
  }

  /** After a write has rotated the token to one never used before, the next
      query of any arguments reads the current table instead of a cached result. */
  lemma WriteThenReadSeesTable(store: Store, token: string, args: Args, count: bool, stamp: string,
                               wp: Wp, backend: Backend)
    requires !Empty(VStr(token)) && TokenUnused(store.cache, token)
    ensures GetCustomers(Rotate(store, token), args, count, stamp, wp, backend).0
         == Computed(args, count, store.table, wp, backend)
  {
    var s := Rotate(store, token);
    assert WithToken(s.cache, stamp) == s.cache;
    var key := KeyOf(args, count, s.cache, stamp);
    assert key.token == token;
    assert key !in s.cache;
  }

  // ----- add -----

  /** The arguments `add` hands to `insert`. */
  function AddArgs(data: Args, wp: Wp): (a: Args)
    ensures "user_id" in a && a["user_id"] == (if "user_id" in data then data["user_id"] else VInt(0))
    ensures forall k :: k != "user_id" && k != "date_created" ==> (k in a <==> k in data)
    ensures forall k :: k in data && k != "user_id" && k != "date_created" ==> a[k] == data[k]
    ensures !IsSet(data, "date_created") ==> Get(a, "date_created") == Get(data, "date_created")
    ensures IsSet(data, "date_created") && Empty(data["date_created"]) ==> "date_created" !in a
    ensures IsSet(data, "date_created") && !Empty(data["date_created"]) ==>
              "date_created" in a &&
              a["date_created"] == VStr(wp.gmDate(wp.strToTime(ToStr(data["date_created"])) - wp.wpOffset))
  {
    var a := ParseArgs(data, map["user_id" := VInt(0)]);
    if IsSet(a, "date_created") then
      if Empty(a["date_created"]) then a - {"date_created"}
      else a["date_created" := VStr(wp.gmDate(wp.strToTime(ToStr(a["date_created"])) - wp.wpOffset))]
    else a
  }

  /** `add( $data )`: the new id, or nothing for `false`. The id is returned
      only when `insert` reports a non-zero id. */
  function Add(store: Store, data: Args, wp: Wp, backend: Backend, token: string): (r: (Option<int>, Store))
    ensures var (res, t) := backend.insert(store.table, AddArgs(data, wp));
            && (r.0.Some? <==> res.Some? && res.value != 0)
            && (r.0.Some? ==> r.0 == res)
            && r.1 == Rotate(Store(t, store.cache), token)
  {
    var (res, t) := backend.insert(store.table, AddArgs(data, wp));
    var ok := res.Some? && !Empty(VInt(res.value));
    (if ok then res else None, Rotate(Store(t, store.cache), token))
  }

  /** A query after `add` (which rotates `last_changed` to a token no cached
      query uses) is computed from the table `insert` left, so it sees the new
      row rather than a cached result from before the write. */
  lemma AddThenReadSeesInsert(store: Store, data: Args, wp: Wp, backend: Backend, token: string,
                              args: Args, count: bool, stamp: string)
    requires !Empty(VStr(token)) && TokenUnused(store.cache, token)
    ensures GetCustomers(Add(store, data, wp, backend, token).1, args, count, stamp, wp, backend).0
         == Computed(args, count, backend.insert(store.table, AddArgs(data, wp)).1, wp, backend)
  {
    var t := backend.insert(store.table, AddArgs(data, wp)).1;
    assert Add(store, data, wp, backend, token).1 == Rotate(Store(t, store.cache), token);
    WriteThenReadSeesTable(Store(t, store.cache), token, args, count, stamp, wp, backend);
  }
}

=== FILE: host.dfy ===
/** WordPress and AffiliateWP helpers the customer layer calls but whose
    code is not part of this model. Each is an uninterpreted function, so
    every property proved here holds whatever they do. */
module Host {
  import opened Php

  datatype Wp = Wp(
    /** `is_email( $s )`. */
    isEmail: string -> bool,
    /** `get_user_by( 'email', $s )->ID`, or nothing when no user matches. */
    userIdByEmail: string -> Option<int>,
    /** `sanitize_text_field( $s )`. */
    sanitizeTextField: string -> string,
    /** `sanitize_key( $s )`. */
    sanitizeKey: string -> string,
    /** `strtotime( $s )` in integer seconds (a failed parse reads as 0). */
    strToTime: string -> int,
    /** `gmdate( 'Y-m-d H:i:s', $t )`. */
    gmDate: int -> string,
    /** `affiliate_wp()->utils->wp_offset`: the site's UTC offset in seconds. */
    wpOffset: int,
    /** `affwp_get_affiliate( $v )->ID`, or nothing when no affiliate matches. */
    affiliateIdOf: Value -> Option<Value>,
    /** `wp_verify_nonce( $nonce, $action )`. */
    verifyNonce: (string, string) -> bool)
}

=== FILE: list_table.dfy ===
/** `AffWP_Customers_Table`: translation of the admin request into
    `get_customers` arguments (`customers_data`), the counts query
    (`get_customer_counts`), bulk deletion (`process_bulk_action`) and the
    page count set in `prepare_items`. */
module CustomersListTable {
  import opened Php
  import opened Host
  import opened CustomersDb
  import opened CustomerFunctions

  /** `$_GET[$k]` when set, otherwise the fallback. */
  function Param(get: Args, k: string, fallback: Value): (v: Value)
    ensures IsSet(get, k) ==> v == get[k]
    ensures !IsSet(get, k) ==> v == fallback
  {
    if IsSet(get, k) then get[k] else fallback
  }

  /** The requested page: `absint( $_GET['paged'] )`, 1 when absent. */
  function PageNumber(get: Args): (page: int)
    ensures !IsSet(get, "paged") ==> page == 1
    ensures IsSet(get, "paged") ==> page == AbsInt(get["paged"])
  {
    if IsSet(get, "paged") then AbsInt(get["paged"]) else 1
  }

  /** The date bounds: `start` only for a non-empty `filter_from`, `end` only
      for a non-empty `filter_to`, extended to the last second of that day. */
  function DateBounds(get: Args): (d: Value)
    ensures d.VArr?
    ensures Entry(d.entries, "start").Some? <==> !Empty(Get(get, "filter_from"))
    ensures Entry(d.entries, "start").Some? ==> Entry(d.entries, "start").value == get["filter_from"]
    ensures Entry(d.entries, "end").Some? <==> !Empty(Get(get, "filter_to"))
    ensures Entry(d.entries, "end").Some? ==>
              Entry(d.entries, "end").value == VStr(ToStr(get["filter_to"]) + " 23:59:59")
    ensures Empty(d) <==> Empty(Get(get, "filter_from")) && Empty(Get(get, "filter_to"))
  {
    var from := Param(get, "filter_from", VStr(""));
    var to := Param(get, "filter_to", VStr(""));
    var s := if !Empty(from) then [(StrKey("start"), from)] else [];
    var e := if !Empty(to) then [(StrKey("end"), VStr(ToStr(to) + " 23:59:59"))] else [];
    assert Entry(s + e, "end") == Entry(e, "end") by {
      if |s| > 0 {
        assert (s + e)[1..] == e;
      }
    }
    VArr(s + e)
  }

  /** The customer, user and affiliate filters of `customers_data`. */
  datatype Filters = Filters(customer: Value, userId: Value, affiliate: Value)

  /** The filters read from the request before the search is applied. The
      affiliate is replaced by the id of the affiliate it names, or by '' . */
  function RequestFilters(get: Args, wp: Wp): (f: Filters)
    ensures f.customer == Param(get, "customer_id", VStr(""))
    ensures f.userId == Param(get, "user_id", VStr(""))
    ensures var a := Param(get, "affiliate_id", VStr(""));
            f.affiliate == (if !Empty(a) && wp.affiliateIdOf(a).Some? then wp.affiliateIdOf(a).value else VStr(""))
  {
    var a := Param(get, "affiliate_id", VStr(""));
    Filters(
      Param(get, "customer_id", VStr("")),
      Param(get, "user_id", VStr("")),
      if !Empty(a) && wp.affiliateIdOf(a).Some? then wp.affiliateIdOf(a).value else VStr(""))
  }

  /** The search box: a numeric search names a customer; a search holding
      `user_id:` sets the user filter to the search with the literal `user:`
      removed; `context:` is parsed and dropped; `affiliate:` sets the
      affiliate filter to `absint` of the rest. The first match wins. */
  function ApplySearch(search: string, f: Filters): (g: Filters)
    ensures IsNumericString(search) ==> g == f.(customer := VInt(AbsInt(VStr(search))))
    ensures !IsNumericString(search) && Contains(search, "user_id:") ==>
              g == f.(userId := VStr(Trim(Replace(search, "user:", ""))))
    ensures !IsNumericString(search) && !Contains(search, "user_id:") && Contains(search, "context:") ==> g == f
    ensures (!IsNumericString(search) && !Contains(search, "user_id:") && !Contains(search, "context:")
             && Contains(search, "affiliate:")) ==>
              g == f.(affiliate := VInt(AbsInt(VStr(Trim(Replace(search, "affiliate:", ""))))))
    ensures (!IsNumericString(search) && !Contains(search, "user_id:") && !Contains(search, "context:")
             && !Contains(search, "affiliate:")) ==> g == f
  {
    if IsNumericString(search) then f.(customer := VInt(AbsInt(VStr(search))))
    else if Contains(search, "user_id:") then f.(userId := VStr(Trim(Replace(search, "user:", ""))))
    else if Contains(search, "context:") then f
    else if Contains(search, "affiliate:") then
      f.(affiliate := VInt(AbsInt(VStr(Trim(Replace(search, "affiliate:", ""))))))
    else f
  }

  /** A search for the decimal rendering of a number filters by that customer. */
  lemma NumericSearchSelectsCustomer(n: nat, f: Filters)
    ensures ApplySearch(NatToString(n), f) == f.(customer := VInt(n))
  {
    IntToStringIsNumeric(n);
    IntToStringRoundTrip(n);
    assert IntToString(n) == NatToString(n);
  }

  /** A string that starts with a letter and ends with a digit is not numeric. */
  lemma LetterFirstIsNotNumeric(s: string)
    requires |s| > 0 && 'a' <= s[0] <= 'z' && IsDigit(s[|s| - 1])
    ensures !IsNumericString(s)
  {
    assert !IsSpace(s[0], NumericSpace) && !IsSpace(s[|s| - 1], NumericSpace);
    assert StripLeft(s, NumericSpace) == s;
    assert StripRight(s, NumericSpace) == s;
    assert !(s[0] == '+' || s[0] == '-');
    assert LeadingDigits(s) == 0;
    assert s[0] != '.';
    assert !NumericBody(s);
  }

  /** A string that starts with a letter casts to 0. */
  lemma LetterFirstCastsToZero(s: string)
    requires |s| > 0 && 'a' <= s[0] <= 'z'
    ensures StrToInt(s) == 0
  {
    assert !IsSpace(s[0], NumericSpace);
    assert StripLeft(s, NumericSpace) == s;
    assert !(s[0] == '+' || s[0] == '-');
    assert LeadingDigits(s) == 0;
    assert s[..0] == "";
  }

  /** `trim` keeps a string whose ends are not whitespace. */
  lemma TrimKeeps(s: string)
    requires |s| > 0 && !IsSpace(s[0], TrimSpace) && !IsSpace(s[|s| - 1], TrimSpace)
    ensures Trim(s) == s
  {
    assert StripLeft(s, TrimSpace) == s;
    assert StripRight(s, TrimSpace) == s;
  }

  /** `user_id:<digits>` does not contain `user:`. */
  lemma UserIdSearchHoldsNoUserColon(d: string)
    requires AllDigits(d)
    ensures !Contains("user_id:" + d, "user:")
  {
    var s := "user_id:" + d;
    var t := s[1..];
    assert t == "ser_id:" + d;
    assert forall i :: 0 <= i < |t| ==> t[i] != 'u' by {
      forall i | 0 <= i < |t| ensures t[i] != 'u' {
        if i >= 7 {
          assert t[i] == d[i - 7];
        }
      }
    }
    MissingFirstCharNotContained(t, "user:");
    assert !StartsWith(s, "user:") by {
      assert s[4] == '_';
    }
  }

  /** `user_id:<digits>` contains its prefix. */
  lemma UserIdSearchHasPrefix(d: string)
    ensures Contains("user_id:" + d, "user_id:")
  {
    var s := "user_id:" + d;
    assert s[..8] == "user_id:";
    assert StartsWith(s, "user_id:");
  }

  /** Removing `user:` and trimming leaves `user_id:<digits>` as it is. */
  lemma UserIdSearchSurvivesReplace(d: string)
    requires |d| > 0 && AllDigits(d)
    ensures Trim(Replace("user_id:" + d, "user:", "")) == "user_id:" + d
  {
    var s := "user_id:" + d;
    UserIdSearchHoldsNoUserColon(d);
    ReplaceAbsent(s, "user:", "");
    assert Replace(s, "user:", "") == s;
    assert IsDigit(s[|s| - 1]);
    TrimKeeps(s);
  }

  /** `user_id:<n>` is not stripped, because the code removes `user:`: the
      user filter keeps the whole search, and its `intval` is 0. */
  lemma UserIdSearchKeepsPrefix(n: nat, f: Filters)
    ensures var s := "user_id:" + NatToString(n);
            var g := ApplySearch(s, f);
            g == f.(userId := VStr(s)) && IntVal(g.userId) == 0
  {
    var d := NatToString(n);
    var s := "user_id:" + d;
    assert IsDigit(s[|s| - 1]);
    LetterFirstIsNotNumeric(s);
    UserIdSearchHasPrefix(d);
    UserIdSearchSurvivesReplace(d);
    LetterFirstCastsToZero(s);
    var g := ApplySearch(s, f);
    assert g == f.(userId := VStr(s));
    assert IntVal(g.userId) == StrToInt(s);
  }

  /** `affiliate:<digits>` contains neither `user_id:` nor `context:`. */
  lemma AffiliateSearchAvoidsOtherPrefixes(d: string)
    requires AllDigits(d)
    ensures !Contains("affiliate:" + d, "user_id:") && !Contains("affiliate:" + d, "context:")
  {
    var s := "affiliate:" + d;
    forall i | 0 <= i < |s| ensures s[i] != 'u' && s[i] != 'c' {
      if i >= 10 {
        assert s[i] == d[i - 10];
      }
    }
    MissingFirstCharNotContained(s, "user_id:");
    MissingFirstCharNotContained(s, "context:");
  }

  /** `affiliate:<digits>` contains its prefix, and removing it leaves the digits. */
  lemma AffiliateSearchStrips(d: string)
    requires AllDigits(d)
    ensures Contains("affiliate:" + d, "affiliate:")
    ensures Replace("affiliate:" + d, "affiliate:", "") == d
  {
    var s := "affiliate:" + d;
    assert s[..10] == "affiliate:";
    assert StartsWith(s, "affiliate:");
    assert s[10..] == d;
    MissingFirstCharNotContained(d, "affiliate:");
    ReplaceAbsent(d, "affiliate:", "");
    assert Replace(s, "affiliate:", "") == "" + Replace(d, "affiliate:", "");
  }

  /** `affiliate:<n>` filters by affiliate n. */
  lemma AffiliateSearchSelectsAffiliate(n: nat, f: Filters)
    ensures ApplySearch("affiliate:" + NatToString(n), f) == f.(affiliate := VInt(n))
  {
    var d := NatToString(n);
    var s := "affiliate:" + d;
    assert IsDigit(s[|s| - 1]);
    LetterFirstIsNotNumeric(s);
    AffiliateSearchAvoidsOtherPrefixes(d);
    assert ApplySearch(s, f) == f.(affiliate := VInt(AbsInt(VStr(Trim(Replace(s, "affiliate:", ""))))));
    AffiliateSearchValue(n);
  }

  /** The affiliate a search `affiliate:<n>` names is n. */
  lemma AffiliateSearchValue(n: nat)
    ensures AbsInt(VStr(Trim(Replace("affiliate:" + NatToString(n), "affiliate:", "")))) == n
  {
    var d := NatToString(n);
    AffiliateSearchRest(d);
    IntToStringRoundTrip(n);
    assert IntToString(n) == d;
  }

  /** Stripping `affiliate:` from `affiliate:<digits>` and trimming leaves the digits. */
  lemma AffiliateSearchRest(d: string)
    requires |d| > 0 && AllDigits(d)
    ensures Trim(Replace("affiliate:" + d, "affiliate:", "")) == d
  {
    AffiliateSearchStrips(d);
    assert IsDigit(d[0]) && IsDigit(d[|d| - 1]);
    TrimKeeps(d);
  }

  /** The filters after the search box, when there is a search term. */
  function SearchFilters(get: Args, wp: Wp): Filters
  {
    var f := RequestFilters(get, wp);
    if Empty(Get(get, "s")) then f else ApplySearch(wp.sanitizeTextField(ToStr(get["s"])), f)
  }

  /** The nine arguments `customers_data` builds, from their values. */
  function ListArgs(number: Value, offset: Value, f: Filters, date: Value, search: Value,
                    orderby: Value, order: Value): (a: Args)
    ensures a.Keys == {"number", "offset", "customer_id", "user_id", "affiliate_id",
                       "date_created", "search", "orderby", "order"}
    ensures a["number"] == number && a["offset"] == offset && a["date_created"] == date
    ensures a["customer_id"] == f.customer && a["user_id"] == f.userId && a["affiliate_id"] == f.affiliate
    ensures a["search"] == search && a["orderby"] == orderby && a["order"] == order
  {
    map["number" := number, "offset" := offset,
        "customer_id" := f.customer, "user_id" := f.userId, "affiliate_id" := f.affiliate,
        "date_created" := date, "search" := search, "orderby" := orderby, "order" := order]
  }

  /** The arguments the request contributes to `customers_data`. */
  function RequestArgs(get: Args, perPage: int, wp: Wp): (a: Args)
    ensures a.Keys == {"number", "offset", "customer_id", "user_id", "affiliate_id",
                       "date_created", "search", "orderby", "order"}
    ensures a["number"] == VInt(perPage)
    ensures a["offset"] == VInt(perPage * (PageNumber(get) - 1))
    ensures a["date_created"] == DateBounds(get)
    ensures a["search"] == VBool(!Empty(Get(get, "s")))
    ensures a["orderby"] == VStr(wp.sanitizeTextField(ToStr(Param(get, "orderby", VStr("customer_id")))))
    ensures a["order"] == VStr(wp.sanitizeTextField(ToStr(Param(get, "order", VStr("DESC")))))
    ensures var f := SearchFilters(get, wp);
            a["customer_id"] == f.customer && a["user_id"] == f.userId && a["affiliate_id"] == f.affiliate
  {
    ListArgs(VInt(perPage), VInt(perPage * (PageNumber(get) - 1)), SearchFilters(get, wp), DateBounds(get),
             VBool(!Empty(Get(get, "s"))),
             VStr(wp.sanitizeTextField(ToStr(Param(get, "orderby", VStr("customer_id"))))),
             VStr(wp.sanitizeTextField(ToStr(Param(get, "order", VStr("DESC"))))))
  }

  /** Without a search term the customer and user filters are the request's
      own parameters. */
  lemma UnsearchedFilters(get: Args, perPage: int, wp: Wp)
    requires Empty(Get(get, "s"))
    ensures RequestArgs(get, perPage, wp)["customer_id"] == Param(get, "customer_id", VStr(""))
    ensures RequestArgs(get, perPage, wp)["user_id"] == Param(get, "user_id", VStr(""))
  {
    assert SearchFilters(get, wp) == RequestFilters(get, wp);
  }

  /** With a search term the customer, user and affiliate filters are the
      request's own, as the sanitised search rewrites them. */
  lemma SearchedFilters(get: Args, perPage: int, wp: Wp)
    requires !Empty(Get(get, "s"))
    ensures var g := ApplySearch(wp.sanitizeTextField(ToStr(get["s"])), RequestFilters(get, wp));
            var a := RequestArgs(get, perPage, wp);
            a["customer_id"] == g.customer && a["user_id"] == g.userId && a["affiliate_id"] == g.affiliate
  {
    assert SearchFilters(get, wp) == ApplySearch(wp.sanitizeTextField(ToStr(get["s"])), RequestFilters(get, wp));
  }

  /** The arguments `customers_data` passes to `get_customers`; the table's
      own `query_args` win over the request. */
  function CustomersDataArgs(get: Args, queryArgs: Args, perPage: int, wp: Wp): (a: Args)
    ensures a.Keys == queryArgs.Keys + RequestArgs(get, perPage, wp).Keys
    ensures forall k :: k in queryArgs ==> a[k] == queryArgs[k]
    ensures forall k :: k in a && k !in queryArgs ==> a[k] == RequestArgs(get, perPage, wp)[k]
  {
    ParseArgs(queryArgs, RequestArgs(get, perPage, wp))
  }

  /** Without a `paged` parameter the list starts at page 1; page n
      (given as its decimal rendering) is page n. */
  lemma PageNumbers(get: Args, n: nat)
    ensures !IsSet(get, "paged") ==> PageNumber(get) == 1
    ensures PageNumber(get["paged" := VStr(NatToString(n))]) == n
  {
    IntToStringRoundTrip(n);
    assert IntToString(n) == NatToString(n);
  }

  /** The offset handed to `get_customers` is `per_page` times the pages
      before the current one. */
  lemma DataOffset(get: Args, queryArgs: Args, perPage: int, wp: Wp)
    requires "offset" !in queryArgs
    ensures CustomersDataArgs(get, queryArgs, perPage, wp)["offset"] == VInt(perPage * (PageNumber(get) - 1))
  {
    var r := RequestArgs(get, perPage, wp);
    assert "offset" in r;
  }

  /** Page 1 starts at offset 0, page n at n - 1 pages in. */
  lemma PageOffsets(get: Args, queryArgs: Args, perPage: int, wp: Wp, n: nat)
    requires "offset" !in queryArgs
    ensures !IsSet(get, "paged") ==> CustomersDataArgs(get, queryArgs, perPage, wp)["offset"] == VInt(0)
    ensures CustomersDataArgs(get["paged" := VStr(NatToString(n))], queryArgs, perPage, wp)["offset"]
         == VInt(perPage * (n - 1))
  {
    FirstPageOffset(get, queryArgs, perPage, wp);
    NthPageOffset(get, queryArgs, perPage, wp, n);
  }

  lemma FirstPageOffset(get: Args, queryArgs: Args, perPage: int, wp: Wp)
    requires "offset" !in queryArgs
    ensures !IsSet(get, "paged") ==> CustomersDataArgs(get, queryArgs, perPage, wp)["offset"] == VInt(0)
  {
    DataOffset(get, queryArgs, perPage, wp);
  }

  lemma NthPageOffset(get: Args, queryArgs: Args, perPage: int, wp: Wp, n: nat)
    requires "offset" !in queryArgs
    ensures CustomersDataArgs(get["paged" := VStr(NatToString(n))], queryArgs, perPage, wp)["offset"]
         == VInt(perPage * (n - 1))
  {
    var g := get["paged" := VStr(NatToString(n))];
    PageNumbers(get, n);
    assert PageNumber(g) == n;
    DataOffset(g, queryArgs, perPage, wp);
  }

  /** The search flag handed to `get_customers` is a boolean, which is
      neither numeric nor a string, so the search box never adds a search
      condition to the WHERE clause. */
  lemma ListSearchAddsNoCondition(get: Args, queryArgs: Args, perPage: int, wp: Wp)
    requires "search" !in queryArgs
    ensures SearchCondition(CustomersDataArgs(get, queryArgs, perPage, wp)["search"], wp).None?
  {
  }

  /** The arguments of the "current" count: the same query with `number` -1. */
  function CurrentCountArgs(get: Args, queryArgs: Args, perPage: int, wp: Wp): Args {
    WithoutLimit(CustomersDataArgs(get, queryArgs, perPage, wp))
  }

  /** `$args['number'] = -1`: every other argument is kept. */
  function WithoutLimit(l: Args): (a: Args)
    ensures a.Keys == l.Keys + {"number"} && a["number"] == VInt(-1)
    ensures forall k :: k in l && k != "number" ==> a[k] == l[k]
  {
    l["number" := VInt(-1)]
  }

  /** The current count has no limit and counts under exactly the filters of
      the listed page. */
  lemma CurrentCountMatchesListFilters(get: Args, queryArgs: Args, perPage: int, wp: Wp, backend: Backend)
    ensures var l := CustomersDataArgs(get, queryArgs, perPage, wp);
            var c := CurrentCountArgs(get, queryArgs, perPage, wp);
            && Normalise(c)["number"] == VInt(Unbounded)
            && Where(Prepared(c), wp, backend) == Where(Prepared(l), wp, backend)
  {
    var l := CustomersDataArgs(get, queryArgs, perPage, wp);
    var c := CurrentCountArgs(get, queryArgs, perPage, wp);
    assert c == l["number" := VInt(-1)];
    PreparedNumber(c);
    NormaliseKeeps(c, "number");
    LimitDoesNotAffectWhere(l, VInt(-1), wp, backend);
  }

  /** `absint` applied to a scalar, or element-wise (keys kept) to an array. */
  function AbsIntAll(v: Value): (r: Value)
    ensures !v.VArr? ==> r == VInt(AbsInt(v))
    ensures v.VArr? ==> r.VArr? && |r.entries| == |v.entries|
    ensures v.VArr? ==> forall i :: 0 <= i < |v.entries| ==>
              r.entries[i] == (v.entries[i].0, VInt(AbsInt(v.entries[i].1)))
  {
    match v
    case VArr(es) => VArr(seq(|es|, i requires 0 <= i < |es| => (es[i].0, VInt(AbsInt(es[i].1)))))
    case _ => VInt(AbsInt(v))
  }

  /** Normalising ids twice changes nothing. */
  lemma AbsIntAllIdempotent(v: Value)
    ensures AbsIntAll(AbsIntAll(v)) == AbsIntAll(v)
  {
    var r := AbsIntAll(v);
    if v.VArr? {
      assert AbsIntAll(r).entries == r.entries;
    }
  }

  /** The arguments `get_customer_counts` passes to `count`: the table's
      `query_args` with `affiliate_id` and `customer_id` from the request,
      normalised with `absint`. */
  function CustomerCountsArgs(get: Args, queryArgs: Args): (a: Args)
    ensures a.Keys == queryArgs.Keys + {"affiliate_id", "customer_id"}
    ensures forall k :: k in queryArgs && k != "affiliate_id" && k != "customer_id" ==> a[k] == queryArgs[k]
    ensures a["affiliate_id"] == AbsIntAll(Param(get, "affiliate_id", VStr("")))
    ensures a["customer_id"] == AbsIntAll(Param(get, "customer_id", VStr("")))
  {
    queryArgs["affiliate_id" := AbsIntAll(Param(get, "affiliate_id", VStr("")))]
             ["customer_id" := AbsIntAll(Param(get, "customer_id", VStr("")))]
  }

  /** A scalar id and the one-element list holding it normalise alike. */
  lemma AbsIntAllScalarOrList(v: Value)
    requires !v.VArr?
    ensures AbsIntAll(List([v])) == List([AbsIntAll(v)])
  {
  }

  /** An absent or empty id counts as customer 0. */
  lemma CountIdsDefault(get: Args, queryArgs: Args)
    requires !IsSet(get, "customer_id")
    ensures CustomerCountsArgs(get, queryArgs)["customer_id"] == VInt(0)
  {
    assert Param(get, "customer_id", VStr("")) == VStr("");
    assert StripLeft("", NumericSpace) == "";
    assert LeadingDigits("") == 0;
    assert StrToInt("") == 0;
  }

  /** The ids of a bulk action: the request's `customer_id`, wrapped in a list
      when it is a scalar, each passed through `absint`. */
  function BulkIds(get: Args): (ids: seq<nat>)
    ensures var raw := Param(get, "customer_id", VArr([]));
            raw.VArr? ==> |ids| == |raw.entries|
    ensures var raw := Param(get, "customer_id", VArr([]));
            raw.VArr? ==> forall i :: 0 <= i < |ids| ==> ids[i] == AbsInt(raw.entries[i].1)
    ensures var raw := Param(get, "customer_id", VArr([]));
            !raw.VArr? ==> ids == [AbsInt(raw)]
  {
    var raw := Param(get, "customer_id", VArr([]));
    match raw
    case VArr(es) => seq(|es|, i requires 0 <= i < |es| => AbsInt(es[i].1))
    case _ => [AbsInt(raw)]
  }

  /** The ids `process_bulk_action` passes to `affwp_delete_customer`, in
      order: none without a valid nonce, ids or action, and all of them only
      when the current action is 'delete'. */
  function BulkDeletes(request: Args, get: Args, currentAction: Value, wp: Wp): (ids: seq<nat>)
    ensures ids == [] || ids == BulkIds(get)
    ensures ids != [] <==>
              && !Empty(Get(request, "_wpnonce"))
              && (wp.verifyNonce(ToStr(request["_wpnonce"]), "bulk-customers")
                  || wp.verifyNonce(ToStr(request["_wpnonce"]), "customer-nonce"))
              && BulkIds(get) != []
              && !Empty(Get(request, "action"))
              && currentAction == VStr("delete")
  {
    if Empty(Get(request, "_wpnonce")) then []
    else
      var nonce := ToStr(request["_wpnonce"]);
      if !wp.verifyNonce(nonce, "bulk-customers") && !wp.verifyNonce(nonce, "customer-nonce") then []
      else
        var ids := BulkIds(get);
        var action := if !Empty(Get(request, "action")) then request["action"] else VBool(false);
        if |ids| == 0 || Empty(action) then []
        else if currentAction == VStr("delete") then ids
        else []
  }

  /** A set scalar id, even an empty string, becomes one delete of
      `absint` of it. */
  lemma ScalarBulkIdIsWrapped(get: Args, v: Value)
    requires v != VNull && !v.VArr?
    ensures BulkIds(get["customer_id" := v]) == [AbsInt(v)]
    ensures BulkIds(get["customer_id" := List([v])]) == [AbsInt(v)]
  {
  }

  /** `affwp_delete_customer` applied to each id in turn; every delete that
      reaches the database rotates `last_changed` to `token`, so the cache
      afterwards is the old one, or the old one with that one entry set. */
  function DeleteEach(store: Store, ids: seq<nat>, backend: Backend, token: string): (s: Store)
    ensures ids == [] ==> s == store
    ensures s.cache == store.cache || s.cache == store.cache[LastChanged := VStr(token)]
    decreases |ids|
  {
    if ids == [] then store
    else
      var first := DeleteCustomer(store, VInt(ids[0]), backend, token).1;
      var s := DeleteEach(first, ids[1..], backend, token);
      assert first.cache[LastChanged := VStr(token)] == store.cache[LastChanged := VStr(token)]
        || first.cache == store.cache;
      s
  }

  /** Deleting a list of ids and then one more id is deleting the longer
      list: the loop calls `affwp_delete_customer` once per id, in order. */
  lemma {:induction false} DeleteEachAppend(store: Store, ids: seq<nat>, x: nat, backend: Backend, token: string)
    ensures DeleteEach(store, ids + [x], backend, token)
         == DeleteCustomer(DeleteEach(store, ids, backend, token), VInt(x), backend, token).1
    decreases |ids|
  {
    if ids == [] {
      assert ids + [x] == [x];
      assert [x][1..] == [];
    } else {
      var first := DeleteCustomer(store, VInt(ids[0]), backend, token).1;
      assert (ids + [x])[0] == ids[0];
      assert (ids + [x])[1..] == ids[1..] + [x];
      DeleteEachAppend(first, ids[1..], x, backend, token);
    }
  }

  /** A table whose rows are stored under their own ids. */
  predicate WellKeyed(t: Table) {
    forall id :: id in t ==> t[id].customerId == id
  }

  /** What the table lemma assumes of the base class: `get_core_object`
      finds exactly the stored row, and `delete` removes exactly that row. */
  ghost predicate ExactRows(backend: Backend) {
    && (forall t: Table, id: int :: backend.getObject(t, VInt(id)) == if id in t then Some(t[id]) else None)
    && (forall t: Table, id: int :: backend.delete(t, id).1 == t - {id})
  }

  /** Deleting one id from a well-keyed table through a base class with
      exact rows removes that row and nothing else. */
  lemma DeleteOneRemoves(store: Store, n: nat, backend: Backend, token: string)
    requires WellKeyed(store.table) && ExactRows(backend)
    ensures DeleteCustomer(store, VInt(n), backend, token).1.table == store.table - {n}
  {
    assert IsNumeric(VInt(n));
    assert CustomerIdOf(VInt(n)) == Some(VInt(n));
    if n in store.table {
      assert GetCustomer(store.table, VInt(n), backend) == Some(store.table[n]);
    } else {
      assert GetCustomer(store.table, VInt(n), backend).None?;
      assert store.table - {n} == store.table;
    }
  }

  /** Under that assumption, the deletes remove exactly the listed ids and
      keep every other row as it was. */
  lemma {:induction false} DeleteEachRemovesIds(store: Store, ids: seq<nat>, backend: Backend, token: string)
    requires WellKeyed(store.table) && ExactRows(backend)
    ensures var t := DeleteEach(store, ids, backend, token).table;
            && (forall id :: id in t <==> id in store.table && id !in ids)
            && (forall id :: id in t ==> t[id] == store.table[id])
    decreases |ids|
  {
    if ids != [] {
      var n := ids[0];
      var first := DeleteCustomer(store, VInt(n), backend, token).1;
      DeleteOneRemoves(store, n, backend, token);
      assert WellKeyed(first.table);
      DeleteEachRemovesIds(first, ids[1..], backend, token);
      assert ids == [n] + ids[1..];
      assert forall id :: id in ids <==> id == n || id in ids[1..];
    }
  }

  /** `process_bulk_action()`: the store after the deletes it performs. */
  function ProcessBulkAction(store: Store, request: Args, get: Args, currentAction: Value, wp: Wp, backend: Backend,
                             token: string): (s: Store)
    ensures currentAction != VStr("delete") ==> s == store
    ensures Empty(Get(request, "_wpnonce")) ==> s == store
    ensures BulkDeletes(request, get, currentAction, wp) == [] ==> s == store
  {
    DeleteEach(store, BulkDeletes(request, get, currentAction, wp), backend, token)
  }

  /** With a verified nonce, ids, an action and 'delete' as the current
      action, every requested id is deleted and every other row is kept
      (under the base-class assumption `ExactRows`). */
  lemma BulkDeleteRemovesRequested(store: Store, request: Args, get: Args, currentAction: Value, wp: Wp,
                                   backend: Backend, token: string)
    requires WellKeyed(store.table) && ExactRows(backend)
    ensures var t := ProcessBulkAction(store, request, get, currentAction, wp, backend, token).table;
            var ids := BulkDeletes(request, get, currentAction, wp);
            && (ids == [] || ids == BulkIds(get))
            && (forall id :: id in t <==> id in store.table && id !in ids)
            && (forall id :: id in t ==> t[id] == store.table[id])
  {
    DeleteEachRemovesIds(store, BulkDeletes(request, get, currentAction, wp), backend, token);
  }

  /** `ceil( $total_count / $per_page )`: the fewest pages of `perPage`
      rows that hold `total` rows. */
  function TotalPages(total: nat, perPage: int): (pages: nat)
    requires perPage > 0
    ensures pages * perPage >= total
    ensures pages > 0 ==> (pages - 1) * perPage < total
    ensures total == 0 <==> pages == 0
  {
    var q := (total + perPage - 1) / perPage;
    var rem := (total + perPage - 1) % perPage;
    assert total + perPage - 1 == q * perPage + rem;
    assert q * perPage >= total;
    assert (q - 1) * perPage == q * perPage - perPage;
    q
  }
}

=== FILE: php.dfy ===
/** PHP value semantics that the customer layer relies on: loosely typed
    values, `empty()`, `isset()`, integer casts, string conversion, loose
    comparison with `1` and with a word, and the string built-ins the code
    calls (`strtoupper`, `trim`, `strpos`, `str_replace`, `implode`).
    The semantics are those of PHP 8. */
module Php {

  datatype Option<+T> = None | Some(value: T)

  /** An array key: PHP arrays are ordered maps keyed by integers or strings. */
  datatype Key = IntKey(n: int) | StrKey(s: string)

  /** A loosely typed PHP value. Floats and resources are not modelled. */
  datatype Value =
    | VNull
    | VBool(b: bool)
    | VInt(i: int)
    | VStr(s: string)
    | VArr(entries: seq<(Key, Value)>)
    | VObj(props: map<string, Value>)

  /** An associative argument array with string keys, such as `$args` or `$_GET`. */
  type Args = map<string, Value>

  /** A list `array( v0, v1, ... )`: keys 0, 1, ... in order. */
  function List(vs: seq<Value>): (a: Value)
    ensures a.VArr? && |a.entries| == |vs|
    ensures forall i :: 0 <= i < |vs| ==> a.entries[i] == (IntKey(i), vs[i])
  {
    VArr(seq(|vs|, i requires 0 <= i < |vs| => (IntKey(i), vs[i])))
  }

  /** `$a[$k]` for a string key of an array value, if present (first match). */
  function Entry(es: seq<(Key, Value)>, k: string): Option<Value>
  {
    if |es| == 0 then None
    else if es[0].0 == StrKey(k) then Some(es[0].1)
    else Entry(es[1..], k)
  }

  /** `empty($v)`. */
  predicate Empty(v: Value) {
    match v
    case VNull => true
    case VBool(b) => !b
    case VInt(i) => i == 0
    case VStr(s) => s == "" || s == "0"
    case VArr(es) => |es| == 0
    case VObj(_) => false
  }

  /** Reading `$m[$k]`: a missing key reads as null (with a notice). */
  function Get(m: Args, k: string): Value {
    if k in m then m[k] else VNull
  }

  /** `isset($m[$k])`. */
  predicate IsSet(m: Args, k: string) {
    k in m && m[k] != VNull
  }

  /** `wp_parse_args( $args, $defaults )`: the given arguments win over the defaults. */
  function ParseArgs(args: Args, defaults: Args): (r: Args)
    ensures r.Keys == args.Keys + defaults.Keys
    ensures forall k :: k in args ==> r[k] == args[k]
    ensures forall k :: k in defaults && k !in args ==> r[k] == defaults[k]
  {
    defaults + args
  }

  // ----- digits and decimal rendering -----

  predicate IsDigit(c: char) {
    '0' <= c <= '9'
  }

  predicate AllDigits(s: string) {
    forall i :: 0 <= i < |s| ==> IsDigit(s[i])
  }

  function DigitValue(c: char): nat
    requires IsDigit(c)
  {
    (c as int) - ('0' as int)
  }

  function DigitChar(d: nat): (c: char)
    requires d < 10
    ensures IsDigit(c) && DigitValue(c) == d
  {
    (('0' as int) + d) as char
  }

  /** Length of the run of decimal digits at the start of `s`. */
  function LeadingDigits(s: string): (n: nat)
    ensures n <= |s|
    ensures AllDigits(s[..n])
    ensures n < |s| ==> !IsDigit(s[n])
  {
    if |s| > 0 && IsDigit(s[0]) then
      var m := LeadingDigits(s[1..]);
      assert s[..1 + m] == [s[0]] + s[1..][..m];
      1 + m
    else 0
  }

  /** The number a string of decimal digits denotes. */
  function DigitsValue(s: string): nat
    requires AllDigits(s)
  {
    if |s| == 0 then 0
    else
      assert AllDigits(s[..|s| - 1]);
      DigitsValue(s[..|s| - 1]) * 10 + DigitValue(s[|s| - 1])
  }

  /** Decimal rendering of a natural number, most significant digit first. */
  function NatToString(n: nat): (s: string)
    ensures |s| > 0
    ensures AllDigits(s)
  {
    if n < 10 then [DigitChar(n)]
    else
      var p := NatToString(n / 10);
      var s := p + [DigitChar(n % 10)];
      assert forall i :: 0 <= i < |p| ==> s[i] == p[i];
      s
  }

  /** `(string) $i` for an integer. */
  function IntToString(i: int): string {
    if i < 0 then "-" + NatToString(-i) else NatToString(i)
  }

  lemma {:induction false} NatToStringValue(n: nat)
    ensures DigitsValue(NatToString(n)) == n
  {
    if n >= 10 {
      var s := NatToString(n);
      assert s[..|s| - 1] == NatToString(n / 10);
      NatToStringValue(n / 10);
    }
  }

  lemma {:induction false} LeadingDigitsOfDigits(s: string)
    requires AllDigits(s)
    ensures LeadingDigits(s) == |s|
  {
    if |s| > 0 {
      LeadingDigitsOfDigits(s[1..]);
    }
  }

  // ----- integer casts -----

  /** The two whitespace sets the code meets: the one PHP skips around a
      numeric string, and the one `trim()` strips by default. */
  datatype Whitespace = NumericSpace | TrimSpace

  predicate IsSpace(c: char, w: Whitespace) {
    match w
    case NumericSpace => c == ' ' || c == '\t' || c == '\n' || c == '\r' || c == '\U{0B}' || c == '\U{0C}'
    case TrimSpace => c == ' ' || c == '\t' || c == '\n' || c == '\r' || c == '\0' || c == '\U{0B}'
  }

  /** `s` without its leading characters from `space`. */
  function StripLeft(s: string, space: Whitespace): (t: string)
    ensures |t| <= |s| && t == s[|s| - |t|..]
    ensures |t| > 0 ==> !IsSpace(t[0], space)
  {
    if |s| > 0 && IsSpace(s[0], space) then StripLeft(s[1..], space) else s
  }

  /** `s` without its trailing characters from `space`. */
  function StripRight(s: string, space: Whitespace): (t: string)
    ensures |t| <= |s| && t == s[..|t|]
    ensures |t| > 0 ==> !IsSpace(t[|t| - 1], space)
  {
    if |s| > 0 && IsSpace(s[|s| - 1], space) then StripRight(s[..|s| - 1], space) else s
  }

  /** `trim( $s )`. */
  function Trim(s: string): string {
    StripRight(StripLeft(s, TrimSpace), TrimSpace)
  }

  /** `(int) $s` for a string: optional leading whitespace, an optional
      sign, then the longest run of decimal digits (none reads as 0). */
  function StrToInt(s: string): int {
    var t := StripLeft(s, NumericSpace);
    if |t| > 0 && (t[0] == '-' || t[0] == '+') then
      var u := t[1..];
      var m: int := DigitsValue(u[..LeadingDigits(u)]);
      if t[0] == '-' then -m else m
    else
      DigitsValue(t[..LeadingDigits(t)])
  }

  /** `intval( $v )`, the same as `(int) $v`. */
  function IntVal(v: Value): int {
    match v
    case VNull => 0
    case VBool(b) => if b then 1 else 0
    case VInt(i) => i
    case VStr(s) => StrToInt(s)
    case VArr(es) => if |es| == 0 then 0 else 1
    case VObj(_) => 1
  }

  /** WordPress `absint( $v )`: `abs( (int) $v )`. */
  function AbsInt(v: Value): nat {
    var i := IntVal(v);
    if i < 0 then -i else i
  }

  /** An all-digit string casts to the number it denotes. */
  lemma DigitStringValue(d: string)
    requires |d| > 0 && AllDigits(d)
    ensures StrToInt(d) == DigitsValue(d)
  {
    LeadingDigitsOfDigits(d);
    assert IsDigit(d[0]);
    assert !IsSpace(d[0], NumericSpace) && d[0] != '-' && d[0] != '+';
    assert StripLeft(d, NumericSpace) == d;
    assert d[..LeadingDigits(d)] == d;
    assert StrToInt(d) == DigitsValue(d[..LeadingDigits(d)]);
  }

  /** A minus sign before an all-digit string casts to the negated number. */
  lemma NegativeDigitStringValue(d: string)
    requires |d| > 0 && AllDigits(d)
    ensures StrToInt("-" + d) == -(DigitsValue(d) as int)
  {
    var s := "-" + d;
    LeadingDigitsOfDigits(d);
    assert d[..|d|] == d;
    assert StripLeft(s, NumericSpace) == s;
    assert s[1..] == d;
  }

  /** Rendering an integer and casting it back gives the integer. */
  lemma IntToStringRoundTrip(i: int)
    ensures StrToInt(IntToString(i)) == i
  {
    if i < 0 {
      NatToStringValue(-i);
      NegativeDigitStringValue(NatToString(-i));
    } else {
      NatToStringValue(i);
      DigitStringValue(NatToString(i));
    }
  }

  // ----- string conversion and numeric strings -----

  /** `(string) $v`. Arrays render as "Array"; objects without
      `__toString` are an error in PHP and render as "" here. */
  function ToStr(v: Value): string {
    match v
    case VNull => ""
    case VBool(b) => if b then "1" else ""
    case VInt(i) => IntToString(i)
    case VStr(s) => s
    case VArr(_) => "Array"
    case VObj(_) => ""
  }

  /** An exponent part `e[+-]digits` or nothing. */
  predicate ExponentOrEnd(e: string) {
    |e| == 0 ||
    ((e[0] == 'e' || e[0] == 'E') &&
     var x := if |e| > 1 && (e[1] == '+' || e[1] == '-') then e[2..] else e[1..];
     |x| > 0 && AllDigits(x))
  }

  /** A signed decimal number: digits with an optional fraction (or a bare
      fraction), then an optional exponent. */
  predicate NumericBody(t: string) {
    var u := if |t| > 0 && (t[0] == '+' || t[0] == '-') then t[1..] else t;
    var d := LeadingDigits(u);
    if d < |u| && u[d] == '.' then
      var f := LeadingDigits(u[d + 1..]);
      d + f > 0 && ExponentOrEnd(u[d + 1 + f..])
    else
      d > 0 && ExponentOrEnd(u[d..])
  }

  /** A PHP 8 numeric string: a number with optional surrounding whitespace. */
  predicate IsNumericString(s: string) {
    NumericBody(StripRight(StripLeft(s, NumericSpace), NumericSpace))
  }

  /** `is_numeric( $v )`. */
  predicate IsNumeric(v: Value) {
    match v
    case VInt(_) => true
    case VStr(s) => IsNumericString(s)
    case _ => false
  }

  lemma IntToStringIsNumeric(i: int)
    ensures IsNumericString(IntToString(i))
  {
    var n: nat := if i < 0 then -i else i;
    var d := NatToString(n);
    LeadingDigitsOfDigits(d);
    var s := IntToString(i);
    assert !IsSpace(s[0], NumericSpace);
    assert StripLeft(s, NumericSpace) == s;
    assert !IsSpace(s[|s| - 1], NumericSpace);
    assert StripRight(s, NumericSpace) == s;
    if i < 0 {
      assert s[1..] == d;
    }
  }

  // ----- comparison -----

  /** Byte-wise string order, as `strcmp( $a, $b ) < 0`. */
  predicate StrLess(a: string, b: string) {
    if |a| == 0 then |b| > 0
    else if |b| == 0 then false
    else if a[0] != b[0] then a[0] < b[0]
    else StrLess(a[1..], b[1..])
  }

  /** PHP 8 `$v < 1`. A numeric string compares as a number (its value is
      below 1 exactly when its integer part is); any other string compares
      with "1" as a string; null and false are below 1; arrays and objects
      are not. */
  predicate LessThanOne(v: Value) {
    match v
    case VNull => true
    case VBool(b) => !b
    case VInt(i) => i < 1
    case VStr(s) => if IsNumericString(s) then StrToInt(s) < 1 else StrLess(s, "1")
    case VArr(_) => false
    case VObj(_) => false
  }

  /** PHP 8 `$v == $w` where `$w` is a string that is not numeric, as in a
      `switch` over a word such as 'date'. */
  predicate LooseEqualsWord(v: Value, w: string) {
    match v
    case VNull => w == ""
    case VBool(b) => b == !Empty(VStr(w))
    case VInt(i) => IntToString(i) == w
    case VStr(s) => s == w
    case VArr(_) => false
    case VObj(_) => false
  }

  // ----- string built-ins -----

  /** `strtoupper( $s )`: ASCII letters only. */
  function Upper(s: string): (u: string)
    ensures |u| == |s|
  {
    seq(|s|, i requires 0 <= i < |s| => if 'a' <= s[i] <= 'z' then ((s[i] as int) - 32) as char else s[i])
  }

  predicate StartsWith(s: string, p: string) {
    |p| <= |s| && s[..|p|] == p
  }

  /** `strpos( $s, $p ) !== false`. */
  predicate Contains(s: string, p: string)
    decreases |s|
  {
    StartsWith(s, p) || (|s| > 0 && Contains(s[1..], p))
  }

  /** `str_replace( $p, $rep, $s )` for a single search string: one pass,
      left to right, non-overlapping; an empty search string changes nothing. */
  function Replace(s: string, p: string, rep: string): string
    decreases |s|
  {
    if |p| == 0 || |s| < |p| then s
    else if s[..|p|] == p then rep + Replace(s[|p|..], p, rep)
    else [s[0]] + Replace(s[1..], p, rep)
  }

  /** A string that does not hold the first character of `p` does not contain `p`. */
  lemma {:induction false} MissingFirstCharNotContained(s: string, p: string)
    requires |p| > 0
    requires forall i :: 0 <= i < |s| ==> s[i] != p[0]
    ensures !Contains(s, p)
  {
    if |s| > 0 {
      assert s[0] != p[0];
      MissingFirstCharNotContained(s[1..], p);
    }
  }

  /** Replacing a string that does not occur changes nothing. */
  lemma {:induction false} ReplaceAbsent(s: string, p: string, rep: string)
    requires !Contains(s, p)
    ensures Replace(s, p, rep) == s
  {
    if |p| > 0 && |s| >= |p| {
      assert s[..|p|] != p;
      ReplaceAbsent(s[1..], p, rep);
      assert [s[0]] + s[1..] == s;
    }
  }

  /** `implode( $sep, $parts )`. */
  function Implode(sep: string, parts: seq<string>): string {
    if |parts| == 0 then ""
    else if |parts| == 1 then parts[0]
    else parts[0] + sep + Implode(sep, parts[1..])
  }
}

=== FILE: query_args.dfy ===
/** `affwp_remove_query_args`: the single-use query arguments WordPress
    strips from admin URLs after an action has run. */
module RemovableQueryArgs {
  import opened Php

  /** The names removed on every admin screen. */
  function AlwaysRemoved(): (names: seq<string>)
    ensures |names| == 5
  {
    ["affwp_notice", "action2", "settings-updated", "affiliate_activated", "_wpnonce"]
  }

  /** The actions whose `action` argument must survive: the edit screens. */
  function EditActions(): (names: seq<string>)
    ensures |names| == 3
  {
    ["edit_affiliate", "edit_referral", "edit_creative"]
  }

  /** Whether `action` is removed too: it is set and, after `sanitize_key`,
      is not one of the edit actions. */
  predicate RemovesAction(getAction: Option<Value>, sanitizeKey: string -> string) {
    getAction.Some? && getAction.value != VNull && sanitizeKey(ToStr(getAction.value)) !in EditActions()
  }

  /** The filtered list of removable query arguments: the given list, then
      the five fixed names, then `action` when it is removed. `getAction` is
      `$_GET['action']` (nothing when absent). */
  function RemoveQueryArgs(queryArgs: seq<string>, getAction: Option<Value>, sanitizeKey: string -> string)
    : (r: seq<string>)
    ensures |r| == |queryArgs| + 5 || |r| == |queryArgs| + 6
    ensures r[..|queryArgs|] == queryArgs
    ensures r[|queryArgs|..|queryArgs| + 5] == AlwaysRemoved()
    ensures |r| == |queryArgs| + 6 <==> RemovesAction(getAction, sanitizeKey)
    ensures |r| == |queryArgs| + 6 ==> r[|r| - 1] == "action"
  {
    var toRemove := AlwaysRemoved() + (if RemovesAction(getAction, sanitizeKey) then ["action"] else []);
    queryArgs + toRemove
  }

  /** `action` is among the removed names exactly when the request carries an
      action other than an edit screen's. */
  lemma ActionRemovedIff(queryArgs: seq<string>, getAction: Option<Value>, sanitizeKey: string -> string)
    requires "action" !in queryArgs
    ensures "action" in RemoveQueryArgs(queryArgs, getAction, sanitizeKey) <==> RemovesAction(getAction, sanitizeKey)
  {
  }

  /** Editing an affiliate keeps `action` in the URL, whatever other
      arguments are being removed. */
  lemma EditScreensKeepAction(queryArgs: seq<string>, sanitizeKey: string -> string)
    requires "action" !in queryArgs
    requires sanitizeKey("edit_affiliate") == "edit_affiliate"
    ensures "action" !in RemoveQueryArgs(queryArgs, Some(VStr("edit_affiliate")), sanitizeKey)
  {
    ActionRemovedIff(queryArgs, Some(VStr("edit_affiliate")), sanitizeKey);
  }
}

=== FILE: visit.dfy ===
/** The `AffWP_Visit` object: its fields, their defaults and `sanitize_field`. */
module VisitObject {
  import opened Php

  datatype Visit = Visit(
    visitId: int,
    affiliateId: int,
    referralId: int,
    url: Option<string>,
    referrer: Option<string>,
    campaign: Option<string>,
    ip: Option<string>,
    date: Option<string>)

  /** A visit object before any field is filled in. */
  function NewVisit(): (v: Visit)
    ensures v.visitId == 0 && v.affiliateId == 0 && v.referralId == 0
    ensures v.url.None? && v.referrer.None? && v.campaign.None? && v.ip.None? && v.date.None?
  {
    Visit(0, 0, 0, None, None, None, None, None)
  }

  /** The fields whose values are cast to integers. */
  predicate IsIdField(field: string) {
    field in ["visit_id", "affiliate_id", "referral_id"]
  }

  /** `AffWP_Visit::sanitize_field( $field, $value )`. */
  function SanitizeField(field: string, value: Value): (r: Value)
    ensures IsIdField(field) ==> r == VInt(IntVal(value))
    ensures !IsIdField(field) ==> r == value
  {
    if IsIdField(field) then VInt(IntVal(value)) else value
  }

  /** Sanitizing a sanitized value changes nothing. */
  lemma SanitizeFieldIdempotent(field: string, value: Value)
    ensures SanitizeField(field, SanitizeField(field, value)) == SanitizeField(field, value)
  {
  }

  /** An id field given as the decimal rendering of an integer reads back as that integer. */
  lemma SanitizeRenderedId(field: string, i: int)
    requires IsIdField(field)
    ensures SanitizeField(field, VStr(IntToString(i))) == VInt(i)
  {
    IntToStringRoundTrip(i);
  }
}
